=== FILE: README.md ===
# lita-github-pinger in Dafny

A model of the GitHub webhook handler of the Lita chat bot
(`lib/lita/handlers/github_pinger.rb`). The handler receives a GitHub or
Travis webhook at `POST /ghping` and, from a static table of engineers and
their notification preferences, decides who is told about:

- a comment on a pull request or an issue;
- an assignment;
- a passing or failing build.

The model covers the parts of `ghping` that decide who is told and what:

- `find_engineer`;
- `act_on_comment`, including mention extraction, the owner auto-include,
  `uniq.compact` and the per-engineer frequency and location preferences;
- `detect_type` and `act_on_assign`;
- `act_on_build_success` and `act_on_build_failure`;
- the order in which `ghping` runs its checks.

Sending is reduced to *intents*: a direct message to a chat handle, or a post
to `#eng-pr`. A small `Delivery` module models how `send_dm` turns an intent
into a chat message, using a set of resolvable chat users.

The Ruby code raises `NoMethodError` whenever it dereferences `nil`. Examples:

- a commenter, owner, assignee or committer not in the table;
- a mention field without a token;
- a body made only of `@`.

Each such point is a `Fault` in a `Result`. `ghping` runs its four checks in
order. A raise ends the request, so the later checks never run. Messages
already handed to the chat service stay sent. `Dispatch.Run` records both
halves: what was sent and what was raised.

Modules, one per concern of the Ruby file:

| module | file | models |
|---|---|---|
| `Options` | options.dfy | `Option` and `Result` |
| `RubyText` | text.dfy | `String#split('@')`, `split(' ').first`, `gsub(/[^0-9a-z\-_]/i, '')`, `tr` |
| `Lists` | lists.dfy | `Array#uniq`, `Array#compact` |
| `Directory` | directory.dfy | `config.engineers`, `find_engineer` |
| `Webhook` | webhook.dfy | the decoded payload, intents, faults |
| `Mentions` | mentions.dfy | the mention pipeline of `act_on_comment` |
| `CommentRouting` | comment.dfy | `act_on_comment` |
| `AssignRouting` | assign.dfy | `detect_type`, `act_on_assign` |
| `BuildRouting` | build.dfy | `act_on_build_success`, `act_on_build_failure` |
| `Dispatch` | ghping.dfy | `ghping` |
| `Delivery` | delivery.dfy | `send_dm`, `alert_eng_pr` |
| `Scenarios` | scenarios.dfy | worked examples on a three-engineer team |

Where the code behaves differently from what a reader might expect, the
model follows the code:

- A mention field with no token raises, although a reader might expect it to
  be dropped. Examples are `"a @ "` and `"@@b"`. The only example of the
  extraction in the source, the comment at
  lib/lita/handlers/github_pinger.rb:153-154, shows fields that all have a
  token.
- A token that cleans to `""` is still looked up, as GitHub login `""`.
- A body made only of `@` characters raises, because `"@@".split('@')` is
  empty and `[][1..-1]` is `nil`.
- An unknown commenter, owner, assignee or committer raises. The comment at
  lib/lita/handlers/github_pinger.rb:134-135 names this case, a new engineer
  without a configuration, but no check follows it.
- The build frequency is a blacklist. Any value outside it sends, including
  the documented default `"all_discussion"`.
- More than one check can fire on one payload. A raise in an earlier check
  suppresses the later ones.

## Model

| member | source | states |
|---|---|---|
| RubyText.Fields | lib/lita/handlers/github_pinger.rb:153 | the separator-delimited fields are free of the separator and joining them back with it rebuilds the string |
| RubyText.DropTrailingEmpty | lib/lita/handlers/github_pinger.rb:153 | `split` keeps a prefix of the fields whose last field is non-empty; every field dropped is empty |
| RubyText.Split | lib/lita/handlers/github_pinger.rb:153 | `split('@')` yields `@`-free fields, the last one non-empty; a string without `@` splits to itself, `""` to no fields |
| RubyText.FieldsOfJoin | lib/lita/handlers/github_pinger.rb:153 | cutting the join of separator-free fields gives those fields back |
| RubyText.SplitJoinRoundTrip | lib/lita/handlers/github_pinger.rb:153 | `split` inverts joining separator-free fields whose last field is non-empty |
| RubyText.SplitAfterPrefix | lib/lita/handlers/github_pinger.rb:153 | a separator-free prefix is split off as the first field and does not affect the rest; an empty prefix only when a non-empty field follows |
| RubyText.WordUpTo | lib/lita/handlers/github_pinger.rb:154 | the whitespace-free word ends exactly at the first whitespace character |
| RubyText.FirstToken | lib/lita/handlers/github_pinger.rb:154 | `split(' ').first` is `nil` exactly when the field is all whitespace; otherwise it is the whitespace-free run after the leading whitespace, ending at whitespace or at the end |
| RubyText.Clean | lib/lita/handlers/github_pinger.rb:155 | the result keeps exactly the characters in `[0-9A-Za-z_-]`; a string made only of them is unchanged |
| RubyText.CleanChar | lib/lita/handlers/github_pinger.rb:155 | one character is kept exactly when it is a handle character |
| RubyText.CleanAppend | lib/lita/handlers/github_pinger.rb:155 | cleaning a concatenation is the concatenation of the cleaned parts, so kept characters keep their order and multiplicity |
| RubyText.Tr | lib/lita/handlers/github_pinger.rb:102 | `tr` replaces every occurrence of one character and nothing else, keeping the length |
| Lists.Uniq | lib/lita/handlers/github_pinger.rb:165 | `uniq` is duplicate-free, has exactly the members of its input, and keeps them in order of first occurrence |
| Lists.Compact | lib/lita/handlers/github_pinger.rb:165 | `compact` holds exactly the values of the non-`nil` entries |
| Lists.CompactDistinct | lib/lita/handlers/github_pinger.rb:165 | on a duplicate-free input, `compact` stays duplicate-free and keeps the input order |
| Lists.UniqCompact | lib/lita/handlers/github_pinger.rb:165 | `uniq.compact` gives each distinct non-`nil` value once, in order of first occurrence |
| Lists.UniqCompactWithHead | lib/lita/handlers/github_pinger.rb:165 | with a leading element, `uniq.compact` puts it first and otherwise holds exactly the values that follow |
| Lists.Merge | lib/lita/handlers/github_pinger.rb:165 | the merged list is duplicate-free, starts with the head when there is one, holds exactly the head and the non-`nil` values, and follows first-occurrence order |
| Directory.KeyOf | lib/lita/handlers/github_pinger.rb:201-211 | `name` wins over `slack`, which wins over `github`; with none given there is no key |
| Directory.FirstHit | lib/lita/handlers/github_pinger.rb:206-212 | `select { ... }.first` finds the first entry in table order that matches, or nothing when none does |
| Directory.FindEngineer | lib/lita/handlers/github_pinger.rb:201-213 | no key finds nobody; the result is `nil` exactly when no entry matches; otherwise it is the first match |
| Directory.ByGithubLogin | lib/lita/handlers/github_pinger.rb:201-213 | a lookup by GitHub login returns a configured engineer with that login, and `nil` only when nobody has it or the login is `nil` |
| Directory.FindByNameIsHashLookup | lib/lita/handlers/github_pinger.rb:202-204 | with unique keys, lookup by name returns the engineer stored under that key |
| Directory.FindsFirstWithLogin | lib/lita/handlers/github_pinger.rb:206-212 | the engineer found for a login is the first one in table order with that login |
| Mentions.Handles | lib/lita/handlers/github_pinger.rb:154-155 | every field after an `@` must hold a token, else it raises; otherwise the handles are the cleaned tokens, one per field, in order |
| Mentions.Extract | lib/lita/handlers/github_pinger.rb:152-155 | the mentions contain only handle characters, one per `@`-field after the first; a body that splits to no fields raises, and so does a field without a token |
| Mentions.MentionRoundTrip | lib/lita/handlers/github_pinger.rb:152-155 | writing handles as `@h ` after an `@`-free prefix and extracting them gives the same handles back, in order, repeats kept |
| Mentions.MentionFieldsSplit | lib/lita/handlers/github_pinger.rb:153 | `split('@')` of a written mention text recovers the prefix and one field per handle |
| Mentions.HandlesOfMentionFields | lib/lita/handlers/github_pinger.rb:154-155 | each field `h ` of a written mention yields the handle `h` |
| Mentions.TextBeforeFirstAtIgnored | lib/lita/handlers/github_pinger.rb:153 | the text before the first `@`, empty or not, never affects the mentions, as long as both texts are non-empty or something other than `@` follows the first `@` |
| Mentions.PrefixMattersOnlyWhenNothingFollows | lib/lita/handlers/github_pinger.rb:153 | when only `@` characters follow the first `@`, an empty prefix raises and a non-empty one gives no mentions |
| CommentRouting.Resolved | lib/lita/handlers/github_pinger.rb:160 | each mention maps to the engineer with that GitHub login, position by position |
| CommentRouting.MergeMentions | lib/lita/handlers/github_pinger.rb:137-165 | the ping list is duplicate-free; an auto-included owner comes first; an engineer is on it exactly when auto-included or mentioned; the order is that of first occurrence |
| CommentRouting.PingList | lib/lita/handlers/github_pinger.rb:137-166 | without `@` the list is the auto-included owner or empty; with `@` it succeeds exactly when extraction does, propagates its fault, and is the merged list |
| CommentRouting.PingFor | lib/lita/handlers/github_pinger.rb:170-185 | an engineer gets at most one message, addressed to them; none when frequency is `off` or the location is unknown; a DM for `dm` or `nil`, an `#eng-pr` post naming them for `eng-pr` or `eng_pr` |
| CommentRouting.Notify | lib/lita/handlers/github_pinger.rb:170-186 | at most one message per listed engineer; the lemmas below show which engineers get one and in what order |
| CommentRouting.NotifyAt | lib/lita/handlers/github_pinger.rb:170-186 | the ping of the engineer at any position sits between the messages of the engineers before and after it |
| CommentRouting.ListedEngineerIsPinged | lib/lita/handlers/github_pinger.rb:170-186 | every listed engineer who is not silenced gets the DM when their location is `dm` or unset, and the `#eng-pr` post naming them when it is `eng-pr` or `eng_pr` |
| CommentRouting.PingPosition | lib/lita/handlers/github_pinger.rb:170-186 | a pinged engineer's message comes right after the messages of the engineers before it in the list |
| CommentRouting.PingsInListOrder | lib/lita/handlers/github_pinger.rb:170-186 | of two pinged engineers, the one earlier in the list is messaged first |
| CommentRouting.NotifyAppend | lib/lita/handlers/github_pinger.rb:170-186 | notifying a concatenated list sends each part's messages in turn |
| CommentRouting.OffWins | lib/lita/handlers/github_pinger.rb:172 | an engineer with frequency `off` contributes nothing wherever it sits in the list |
| CommentRouting.SenderOf | lib/lita/handlers/github_pinger.rb:170-186 | every message comes from a listed, non-silenced engineer |
| CommentRouting.ActOnComment | lib/lita/handlers/github_pinger.rb:119-191 | a comment on neither a PR nor an issue raises, as do an unknown commenter and an unknown owner; without `@` those are the only raises and at most one message is sent |
| CommentRouting.SelfCommentPingsNobody | lib/lita/handlers/github_pinger.rb:137-148 | commenting on one's own PR or issue without mentioning anyone sends nothing |
| CommentRouting.OwnerOnlyWhenMentioned | lib/lita/handlers/github_pinger.rb:141-165 | an owner who is the commenter, or whose frequency is neither `all_discussion` nor unset, is on the ping list exactly when mentioned |
| CommentRouting.MentionedFromTable | lib/lita/handlers/github_pinger.rb:160 | an engineer that a mention resolves to is an entry of the table |
| CommentRouting.PingListFromTable | lib/lita/handlers/github_pinger.rb:141-165 | everyone on the ping list is a configured engineer |
| CommentRouting.PingedEngineerInTable | lib/lita/handlers/github_pinger.rb:160-185 | every message of a ping list addresses a configured engineer whose frequency is not `off` |
| CommentRouting.MentionedEngineerGetsDm | lib/lita/handlers/github_pinger.rb:150-186 | when a comment is handled without raising, every mentioned engineer who is not silenced and wants DMs gets the comment's DM |
| CommentRouting.CommentMessageReachesActiveEngineer | lib/lita/handlers/github_pinger.rb:119-186 | every message about a comment addresses a configured engineer whose frequency is not `off` |
| AssignRouting.DetectType | lib/lita/handlers/github_pinger.rb:226-232 | `pull_request` exactly when that key is present, `issue` exactly when only the issue is, nothing exactly when neither is |
| AssignRouting.Label | lib/lita/handlers/github_pinger.rb:102 | the resource type reads `pull request` or `issue` in the message |
| AssignRouting.ActOnAssign | lib/lita/handlers/github_pinger.rb:94-117 | no resource means nothing is sent; an unresolved assignee raises, and only that; otherwise the one message is a DM to the assignee naming the resource type and URL |
| BuildRouting.ActOnBuild | lib/lita/handlers/github_pinger.rb:66-92 | raises exactly when the commit is missing or its committer is not in the table (each with its own fault); otherwise at most one DM, sent exactly when the committer's travis frequency allows that outcome, with the outcome's status line and the commit URL |
| BuildRouting.BuildGating | lib/lita/handlers/github_pinger.rb:74-88 | `off` silences both outcomes, `only_passes` and `only_failures` allow one each, and every other value, unset included, allows both |
| Dispatch.Triggered | lib/lita/handlers/github_pinger.rb:49-63 | each check runs exactly when its key has the triggering value; success and failure never both run; checks run in source order |
| Dispatch.FirstFault | lib/lita/handlers/github_pinger.rb:45-64 | the first check that raises; all checks before it returned |
| Dispatch.Sequence | lib/lita/handlers/github_pinger.rb:45-64 | nothing is raised exactly when every check returns; otherwise the first raise is reported and only the messages of the checks before it are sent |
| Dispatch.MessagesAreSent | lib/lita/handlers/github_pinger.rb:45-64 | what the first `n` checks sent is their messages concatenated in run order |
| Dispatch.Ghping | lib/lita/handlers/github_pinger.rb:45-64 | the request ends without raising exactly when every triggered check returns |
| Dispatch.GhpingSendsAll | lib/lita/handlers/github_pinger.rb:45-64 | when every triggered check returns, nothing is raised and all their messages are sent, in the order the checks run |
| Dispatch.GhpingStopsAtFirstFault | lib/lita/handlers/github_pinger.rb:45-64 | a raise comes from the first triggered check that raises; the checks before it all returned and exactly their messages were sent |
| Dispatch.AtMostOneBuildMessage | lib/lita/handlers/github_pinger.rb:57-63 | a build status alone produces at most one message |
| Dispatch.CommentFaultSendsNothing | lib/lita/handlers/github_pinger.rb:49-55 | a comment that raises ends the request before anything is sent |
| Delivery.Deliver | lib/lita/handlers/github_pinger.rb:215-224 | a DM reaches the user exactly when the handle resolves; otherwise `#eng-pr` gets an alert naming the handle; `#eng-pr` posts go to that room unchanged |
| Delivery.DeliverAllPointwise | lib/lita/handlers/github_pinger.rb:215-224 | each intent becomes exactly one message, in order |
| Scenarios.MentionsInOrder | lib/lita/handlers/github_pinger.rb:153-154 | the body `a @b @c d` mentions `b` then `c` |
| Scenarios.PunctuationStripped | lib/lita/handlers/github_pinger.rb:154-155 | `@x!!, @y` mentions `x` and `y`: punctuation after a handle is stripped |
| Scenarios.TrailingAtRaises | lib/lita/handlers/github_pinger.rb:153-155 | an `@` followed only by whitespace raises |
| Scenarios.DoubleAtRaises | lib/lita/handlers/github_pinger.rb:153-155 | `@@b` leaves an empty field, which raises |
| Scenarios.OnlyAtSignsRaise | lib/lita/handlers/github_pinger.rb:153 | a body of only `@` characters raises |
| Scenarios.TeamLookups | lib/lita/handlers/github_pinger.rb:206-212 | each team member is found by their GitHub login |
| Scenarios.ZoeUnknown | lib/lita/handlers/github_pinger.rb:206-212 | a login nobody has finds nobody |
| Scenarios.OwnerThenCarol | lib/lita/handlers/github_pinger.rb:141-165 | Bob comments on Dave's issue mentioning Carol: the ping list is Dave then Carol |
| Scenarios.DaveCarolNotified | lib/lita/handlers/github_pinger.rb:170-185 | Dave (`dm`) gets a DM, then Carol (`eng-pr`) is named in `#eng-pr` |
| Scenarios.MentionOnSomeoneElsesIssue | lib/lita/handlers/github_pinger.rb:119-191 | the comment `@carol thanks!` by Bob on Dave's issue sends Dave's DM and then Carol's `#eng-pr` post |
| Scenarios.CarolBuilds | lib/lita/handlers/github_pinger.rb:66-92 | Carol (`only_failures`) hears nothing about a passing build of her commit and gets one DM about a failing one |
| Scenarios.CarolsPassIsSilent | lib/lita/handlers/github_pinger.rb:45-64 | the whole webhook for a passing build of Carol's commit raises nothing and sends nothing |
| Scenarios.CarolAssigned | lib/lita/handlers/github_pinger.rb:94-117 | an issue assigned to Carol sends her the heads-up DM naming an issue |
| Scenarios.UnknownAssigneeSwallowsFailure | lib/lita/handlers/github_pinger.rb:53-63 | an issue assigned to an unknown login raises before the failure check, so the failing committer is never told |

## Left out

- The HTTP route, `MultiJson.load` and the shape checks of JSON decoding are
  not modelled. The handler starts from a decoded `Payload` whose absent or
  `null` keys are `None`. Intermediate objects are flattened, so a missing
  `user` object and a missing `login` are both a `None` login; both end in
  the same fault.
- The `puts` logging and the Lita `config` machinery are not modelled. The
  table is a parameter.
- Chat-platform calls are not modelled. `Lita::User.fuzzy_find`,
  `Lita::Room.fuzzy_find` and `robot.send_message` are foreign calls.
  - The commenter's chat id is an opaque string parameter.
  - The case where `fuzzy_find` returns `nil` for the commenter is left out.
    That raises only when a DM is built.
  - Delivery takes the set of resolvable chat users as a parameter.
  - A missing `#eng-pr` room is not modelled.
- A `nil` comment URL, comment body, commit URL or pull request/issue URL
  is not modelled; these fields are strings. The pull request/issue URL is
  the one interpolated into the assignment message. Ruby would interpolate
  a `nil` URL as `""`, and a `nil` body would raise at `include?`.
- An engineer record without a `github_preferences`, `travis_preferences` or
  `usernames` hash, or with `nil` handles, is not modelled. Records are
  well-formed; only preference values may be `nil` or arbitrary strings.
- `RubyText.Clean`: the case-insensitive regex is modelled on ASCII letters
  only. Non-ASCII characters that Ruby's Unicode case folding matches to
  `k` or `s` (the Kelvin sign, the long s) are treated as non-handle
  characters.
- Idempotence and the absence of shared state are not stated as lemmas.
  Every operation is a pure function of the payload and the table, so
  handling the same webhook twice yields the same intents by construction.

=== FILE: assign.dfy ===
/** `detect_type` and `act_on_assign`. */
module AssignRouting {
  import opened Options
  import opened RubyText
  import opened Directory
  import opened Webhook

  datatype ResourceKind = PullRequest | Issue

  /** `detect_type`: `pull_request` when that key is present, else `issue`,
      else nothing. */
  function DetectType(p: Payload): (r: Option<ResourceKind>)
    ensures r == Some(PullRequest) <==> p.pullRequest.Some?
    ensures r == Some(Issue) <==> p.pullRequest.None? && p.issue.Some?
    ensures r.None? <==> p.pullRequest.None? && p.issue.None?
  {
    if p.pullRequest.Some? then Some(PullRequest)
    else if p.issue.Some? then Some(Issue)
    else None
  }

  /** The payload key of a resource kind. */
  function KeyName(k: ResourceKind): string {
    match k
    case PullRequest => "pull_request"
    case Issue => "issue"
  }

  /** The resource kind as the message words it, underscores becoming
      spaces. */
  function Label(k: ResourceKind): (r: string)
    ensures k == PullRequest ==> r == "pull request"
    ensures k == Issue ==> r == "issue"
  {
    Tr(KeyName(k), '_', ' ')
  }

  /** The payload's record for the detected kind. */
  function ResourceOf(p: Payload, k: ResourceKind): Option<Resource> {
    match k
    case PullRequest => p.pullRequest
    case Issue => p.issue
  }

  function AssignText(k: ResourceKind, url: string): string {
    "*Heads up!* You've been assigned to review a " + Label(k) + ":\n" + url
  }

  /** `act_on_assign`: one direct message to the assignee naming the resource,
      nothing when the payload carries neither resource, and a raise when the
      assignee is not configured. */
  function ActOnAssign(p: Payload, table: Table): (r: Result<seq<Intent>, Fault>)
    ensures p.pullRequest.None? && p.issue.None? ==> r == Success([])
    ensures r.Failure? <==> (DetectType(p).Some? &&
                             ByGithubLogin(table, ResourceOf(p, DetectType(p).value).value.assigneeLogin).None?)
    ensures r.Failure? ==> r.error == UnknownAssignee
    ensures r.Success? && DetectType(p).Some? ==>
      var res := (if p.pullRequest.Some? then p.pullRequest else p.issue).value;
      exists e :: ByGithubLogin(table, res.assigneeLogin) == Some(e) &&
        r.value == [DirectMessage(e.usernames.slack,
          "*Heads up!* You've been assigned to review a " +
          (if p.pullRequest.Some? then "pull request" else "issue") + ":\n" + res.htmlUrl)]
  {
    match DetectType(p)
    case None => Success([])
    case Some(k) =>
      var res := ResourceOf(p, k).value;
      match ByGithubLogin(table, res.assigneeLogin)
      case None => Failure(UnknownAssignee)
      case Some(assignee) => Success([DirectMessage(assignee.usernames.slack, AssignText(k, res.htmlUrl))])
  }
}

=== FILE: build.dfy ===
/** `act_on_build_success` and `act_on_build_failure`. */
module BuildRouting {
  import opened Options
  import opened Directory
  import opened Webhook

  datatype Outcome = Passed | Failed

  /** The `travis_preferences[:frequency]` values that suppress a message
      about this outcome. */
  function Blacklist(o: Outcome): set<string> {
    match o
    case Failed => {"off", "only_passes"}
    case Passed => {"off", "only_failures"}
  }

  /** Whether a committer with this travis frequency hears about the outcome. */
  predicate Sends(frequency: Option<string>, o: Outcome) {
    frequency.None? || frequency.value !in Blacklist(o)
  }

  function StatusLine(o: Outcome): string {
    match o
    case Failed => ":x: Your commit failed some tests."
    case Passed => ":white_check_mark: Your commit has passed its travis build."
  }

  /** `act_on_build_success` / `act_on_build_failure`. */
  function ActOnBuild(p: Payload, table: Table, o: Outcome): (r: Result<seq<Intent>, Fault>)
    ensures p.commit.None? ==> r == Failure(NoCommit)
    ensures p.commit.Some? && ByGithubLogin(table, p.commit.value.committerLogin).None? ==> r == Failure(UnknownCommitter)
    ensures r.Failure? <==> p.commit.None? || ByGithubLogin(table, p.commit.value.committerLogin).None?
    ensures r.Success? ==> |r.value| <= 1
    ensures r.Success? ==>
      var e := ByGithubLogin(table, p.commit.value.committerLogin).value;
      (|r.value| == 1 <==> Sends(e.travisPrefs.frequency, o)) &&
      (|r.value| == 1 ==> r.value[0] == DirectMessage(e.usernames.slack, StatusLine(o) + "\n" + p.commit.value.htmlUrl))
  {
    match p.commit
    case None => Failure(NoCommit)
    case Some(commit) =>
      match ByGithubLogin(table, commit.committerLogin)
      case None => Failure(UnknownCommitter)
      case Some(committer) =>
        if Sends(committer.travisPrefs.frequency, o) then
          Success([DirectMessage(committer.usernames.slack, StatusLine(o) + "\n" + commit.htmlUrl)])
        else Success([])
  }

  /** The documented build-frequency values behave as documented: "off"
      silences both outcomes, "only_passes" hears only passes, "only_failures"
      only failures, "everything", an unset frequency and any undocumented
      value (such as the documented default "all_discussion") hear both. */
  lemma BuildGating(f: Option<string>)
    ensures !Sends(f, Passed) && !Sends(f, Failed) <==> f == Some("off")
    ensures Sends(f, Passed) && !Sends(f, Failed) <==> f == Some("only_passes")
    ensures !Sends(f, Passed) && Sends(f, Failed) <==> f == Some("only_failures")
    ensures Sends(f, Passed) && Sends(f, Failed) <==> f !in {Some("off"), Some("only_passes"), Some("only_failures")}
  {
  }
}

=== FILE: comment.dfy ===
/** `act_on_comment`: who is pinged about a comment, and how. */
module CommentRouting {
  import opened Options
  import opened Lists
  import opened Directory
  import opened Webhook
  import opened Mentions

  const AllDiscussion := "all_discussion"
  const Off := "off"
  const Dm := "dm"
  const EngPrHyphen := "eng-pr"
  const EngPrUnderscore := "eng_pr"

  /** The resource a comment belongs to: the pull request when the payload
      carries one, otherwise the issue. */
  function Context(p: Payload): Option<Resource> {
    if p.pullRequest.Some? then p.pullRequest else p.issue
  }

  /** The owner is pinged without being mentioned when someone else comments
      and the owner's frequency is `"all_discussion"` or unset. */
  predicate OwnerAutoIncluded(commenter: Engineer, owner: Engineer) {
    commenter != owner && owner.githubPrefs.frequency in {None, Some(AllDiscussion)}
  }

  /** The engineer a mention resolves to, `nil` when nobody has that login. */
  function Resolve(table: Table, mention: string): Option<Engineer> {
    ByGithubLogin(table, Some(mention))
  }

  /** Each mentioned login looked up in the table by GitHub login, one entry
      per mention and in the same order. */
  function Resolved(table: Table, mentions: seq<string>): (rs: seq<Option<Engineer>>)
    ensures |rs| == |mentions|
    ensures forall i :: 0 <= i < |mentions| ==> rs[i] == Resolve(table, mentions[i])
  {
    if |mentions| == 0 then [] else [Resolve(table, mentions[0])] + Resolved(table, mentions[1..])
  }

  /** The owner, when auto-included, as the head of the ping list. */
  function AutoOwner(commenter: Engineer, owner: Engineer): Option<Engineer> {
    if OwnerAutoIncluded(commenter, owner) then Some(owner) else None
  }

  /** The candidates for the ping list before duplicates and unknown logins
      are dropped: the auto-included owner, then every resolved mention. */
  function Sources(commenter: Engineer, owner: Engineer, mentions: seq<string>, table: Table): seq<Option<Engineer>> {
    Prepend(AutoOwner(commenter, owner), Resolved(table, mentions))
  }

  /** Some mention resolves to `e`. */
  predicate Mentioned(e: Engineer, mentions: seq<string>, table: Table) {
    Some(e) in Resolved(table, mentions)
  }

  /** The ping list `act_on_comment` builds: the owner when auto-included, then every resolved mention, each engineer once, in
      order of first occurrence. */
  function MergeMentions(commenter: Engineer, owner: Engineer, ms: seq<string>, table: Table): (l: seq<Engineer>)
    ensures NoDup(l)
    ensures OwnerAutoIncluded(commenter, owner) ==> |l| > 0 && l[0] == owner
    ensures forall e :: e in l <==> (OwnerAutoIncluded(commenter, owner) && e == owner) || Mentioned(e, ms, table)
    ensures forall k :: 0 <= k < |l| ==> Some(l[k]) in Sources(commenter, owner, ms, table)
    ensures forall i, j :: 0 <= i < j < |l| ==>
      IndexOf(Sources(commenter, owner, ms, table), Some(l[i])) < IndexOf(Sources(commenter, owner, ms, table), Some(l[j]))
  {
    var rs := Resolved(table, ms);
    var l := Merge(AutoOwner(commenter, owner), rs);
    assert forall e :: Mentioned(e, ms, table) ==> e in l by {
      forall e | Mentioned(e, ms, table) ensures e in l {
        var i :| 0 <= i < |rs| && rs[i] == Some(e);
      }
    }
    l
  }

  /** The engineers to ping about a comment, before preferences are applied. */
  function PingList(commenter: Engineer, owner: Engineer, body: string, table: Table): (r: Result<seq<Engineer>, Fault>)
    ensures '@' !in body ==> r == Success(if OwnerAutoIncluded(commenter, owner) then [owner] else [])
    ensures '@' in body ==> (r.Success? <==> Extract(body).Success?)
    ensures '@' in body && r.Failure? ==> r.error == Extract(body).error
    ensures '@' in body && r.Success? ==> r.value == MergeMentions(commenter, owner, Extract(body).value, table)
    ensures r.Success? ==> NoDup(r.value)
    ensures r.Success? && OwnerAutoIncluded(commenter, owner) ==> |r.value| > 0 && r.value[0] == owner
  {
    if '@' !in body then
      Success(if OwnerAutoIncluded(commenter, owner) then [owner] else [])
    else
      match Extract(body)
      case Failure(f) => Failure(f)
      case Success(ms) => Success(MergeMentions(commenter, owner, ms, table))
  }

  /** What the direct-message and `#eng-pr` templates interpolate. */
  datatype CommentContext = CommentContext(commenterId: string, commenterSlack: string, url: string, body: string)

  /** The direct-message template, which links the commenter's chat user. */
  function DmText(c: CommentContext): string {
    "New PR comment from <@" + c.commenterId + "|" + c.commenterSlack + ">:\n" + c.url + "\n" + c.body
  }

  /** The `#eng-pr` template, which names the recipient. */
  function EngPrText(slack: string, c: CommentContext): string {
    "@" + slack + ", new PR mention: " + c.url + "\n" + c.body
  }

  /** Frequency `"off"` silences an engineer for comments. */
  predicate Silenced(e: Engineer) {
    e.githubPrefs.frequency == Some(Off)
  }

  predicate WantsDm(e: Engineer) {
    e.githubPrefs.pingLocation in {None, Some(Dm)}
  }

  predicate WantsEngPr(e: Engineer) {
    e.githubPrefs.pingLocation in {Some(EngPrHyphen), Some(EngPrUnderscore)}
  }

  /** A message reaches the chat user `slack`: a direct message to them, or
      an `#eng-pr` post that opens by naming them. */
  predicate Addresses(i: Intent, slack: string) {
    match i
    case DirectMessage(to, _) => to == slack
    case EngPrAlert(text) => "@" + slack + ", new PR mention: " <= text
  }

  /** The messages one listed engineer receives about a comment. */
  function PingFor(e: Engineer, c: CommentContext): (r: seq<Intent>)
    ensures |r| <= 1
    ensures forall k :: 0 <= k < |r| ==> Addresses(r[k], e.usernames.slack)
    ensures Silenced(e) ==> r == []
    ensures |r| == 1 <==> !Silenced(e) && (WantsDm(e) || WantsEngPr(e))
    ensures !Silenced(e) && WantsDm(e) ==> r == [DirectMessage(e.usernames.slack, DmText(c))]
    ensures !Silenced(e) && WantsEngPr(e) ==> r == [EngPrAlert(EngPrText(e.usernames.slack, c))]
  {
    if Silenced(e) then []
    else
      match e.githubPrefs.pingLocation
      case None => [DirectMessage(e.usernames.slack, DmText(c))]
      case Some(loc) =>
        if loc == Dm then [DirectMessage(e.usernames.slack, DmText(c))]
        else if loc == EngPrHyphen || loc == EngPrUnderscore then [EngPrAlert(EngPrText(e.usernames.slack, c))]
        else []
  }

  /** The pings `act_on_comment` sends, one per listed engineer, in list
      order. */
  function Notify(list: seq<Engineer>, c: CommentContext): (r: seq<Intent>)
    ensures |r| <= |list|
  {
    if |list| == 0 then [] else PingFor(list[0], c) + Notify(list[1..], c)
  }

  /** Notifying a concatenated list notifies each part in turn. */
  lemma {:induction false} NotifyAppend(a: seq<Engineer>, b: seq<Engineer>, c: CommentContext)
    ensures Notify(a + b, c) == Notify(a, c) + Notify(b, c)
  {
    if |a| > 0 {
      assert (a + b)[1..] == a[1..] + b;
      NotifyAppend(a[1..], b, c);
    } else {
      assert a + b == b;
    }
  }

  /** "Off" wins: a silenced engineer contributes nothing wherever it sits in
      the list, even when mentioned. */
  lemma OffWins(a: seq<Engineer>, e: Engineer, b: seq<Engineer>, c: CommentContext)
    requires Silenced(e)
    ensures Notify(a + [e] + b, c) == Notify(a + b, c)
  {
    NotifyAppend(a + [e], b, c);
    NotifyAppend(a, [e], c);
    NotifyAppend(a, b, c);
  }

  /** Every message is the ping of a listed engineer who is not silenced:
      message `k` comes from the engineer at position `i`. */
  lemma {:induction false} SenderOf(list: seq<Engineer>, c: CommentContext, k: nat) returns (i: nat)
    requires k < |Notify(list, c)|
    ensures i < |list| && !Silenced(list[i]) && PingFor(list[i], c) == [Notify(list, c)[k]]
  {
    var p := PingFor(list[0], c);
    assert Notify(list, c) == p + Notify(list[1..], c);
    if k < |p| {
      assert |p| == 1 && k == 0;
      i := 0;
    } else {
      var j := SenderOf(list[1..], c, k - |p|);
      i := j + 1;
    }
  }

  /** The messages of the engineer at any position sit between those of the
      engineers before and after it. */
  lemma NotifyAt(a: seq<Engineer>, e: Engineer, b: seq<Engineer>, c: CommentContext)
    ensures Notify(a + [e] + b, c) == Notify(a, c) + PingFor(e, c) + Notify(b, c)
  {
    NotifyAppend(a + [e], b, c);
    NotifyAppend(a, [e], c);
    assert [e][1..] == [];
  }

  /** Every listed engineer who is not silenced and has a known ping location
      receives their ping: a direct message or an `#eng-pr` post naming them. */
  lemma ListedEngineerIsPinged(list: seq<Engineer>, i: nat, c: CommentContext)
    requires i < |list| && !Silenced(list[i])
    ensures WantsDm(list[i]) ==> DirectMessage(list[i].usernames.slack, DmText(c)) in Notify(list, c)
    ensures WantsEngPr(list[i]) ==> EngPrAlert(EngPrText(list[i].usernames.slack, c)) in Notify(list, c)
  {
    assert list == list[..i] + [list[i]] + list[i + 1..];
    NotifyAt(list[..i], list[i], list[i + 1..], c);
  }

  /** The ping of a pinged engineer at position `i` is the message right
      after those of the engineers before it. */
  lemma PingPosition(list: seq<Engineer>, i: nat, c: CommentContext)
    requires i < |list| && |PingFor(list[i], c)| == 1
    ensures |Notify(list[..i], c)| < |Notify(list, c)|
    ensures Notify(list, c)[|Notify(list[..i], c)|] == PingFor(list[i], c)[0]
  {
    var before, after := list[..i], list[i + 1..];
    assert list == before + [list[i]] + after;
    NotifyAt(before, list[i], after, c);
  }

  /** The pings follow the list order: a pinged engineer's message comes
      before the message of any engineer further down the list. */
  lemma PingsInListOrder(list: seq<Engineer>, i: nat, j: nat, c: CommentContext)
    requires i < j < |list|
    requires |PingFor(list[i], c)| == 1 && |PingFor(list[j], c)| == 1
    ensures |Notify(list[..i], c)| < |Notify(list[..j], c)| < |Notify(list, c)|
    ensures Notify(list, c)[|Notify(list[..i], c)|] == PingFor(list[i], c)[0]
    ensures Notify(list, c)[|Notify(list[..j], c)|] == PingFor(list[j], c)[0]
  {
    PingPosition(list, i, c);
    PingPosition(list, j, c);
    var prefix := list[..j];
    assert prefix[i] == list[i] && prefix[..i] == list[..i];
    PingPosition(prefix, i, c);
  }

  /** `act_on_comment`. */
  function ActOnComment(comment: Comment, p: Payload, table: Table, commenterId: string): (r: Result<seq<Intent>, Fault>)
    ensures Context(p).None? ==> r == Failure(NoContext)
    ensures Context(p).Some? && ByGithubLogin(table, comment.userLogin).None? ==> r == Failure(UnknownCommenter)
    ensures (Context(p).Some? && ByGithubLogin(table, comment.userLogin).Some? &&
             ByGithubLogin(table, Context(p).value.userLogin).None?) ==> r == Failure(UnknownOwner)
    ensures r.Failure? && '@' !in comment.body ==> r.error in {NoContext, UnknownCommenter, UnknownOwner}
    ensures r.Success? ==> |r.value| <= 1 || '@' in comment.body
  {
    match Context(p)
    case None => Failure(NoContext)
    case Some(ctx) =>
      match ByGithubLogin(table, comment.userLogin)
      case None => Failure(UnknownCommenter)
      case Some(commenter) =>
        match ByGithubLogin(table, ctx.userLogin)
        case None => Failure(UnknownOwner)
        case Some(owner) =>
          var list :- PingList(commenter, owner, comment.body, table);
          Success(Notify(list, CommentContext(commenterId, commenter.usernames.slack, comment.htmlUrl, comment.body)))
  }

  /** Commenting on one's own pull request or issue without mentioning anyone
      pings nobody. */
  lemma SelfCommentPingsNobody(comment: Comment, p: Payload, table: Table, commenterId: string)
    requires Context(p).Some? && comment.userLogin == Context(p).value.userLogin
    requires '@' !in comment.body
    ensures ActOnComment(comment, p, table, commenterId).Success? ==> ActOnComment(comment, p, table, commenterId).value == []
  {
  }

  /** An owner who is not auto-included (the commenter, or one whose
      frequency is neither "all_discussion" nor unset) is pinged only when
      mentioned. */
  lemma OwnerOnlyWhenMentioned(commenter: Engineer, owner: Engineer, body: string, table: Table)
    requires !OwnerAutoIncluded(commenter, owner)
    requires PingList(commenter, owner, body, table).Success?
    ensures owner in PingList(commenter, owner, body, table).value <==>
            '@' in body && Mentioned(owner, Extract(body).value, table)
  {
  }

  /** A mentioned engineer is an entry of the table. */
  lemma MentionedFromTable(e: Engineer, ms: seq<string>, table: Table)
    requires Mentioned(e, ms, table)
    ensures exists i :: 0 <= i < |table| && table[i].engineer == e
  {
    var rs := Resolved(table, ms);
    var m :| 0 <= m < |rs| && rs[m] == Some(e);
    assert ByGithubLogin(table, Some(ms[m])) == Some(e);
  }

  /** Every engineer on the ping list is a configured one. */
  lemma PingListFromTable(commenter: Engineer, owner: Engineer, body: string, table: Table, k: nat)
    requires exists i :: 0 <= i < |table| && table[i].engineer == owner
    requires PingList(commenter, owner, body, table).Success? && k < |PingList(commenter, owner, body, table).value|
    ensures exists i :: 0 <= i < |table| && table[i].engineer == PingList(commenter, owner, body, table).value[k]
  {
    var l := PingList(commenter, owner, body, table).value;
    var e := l[k];
    if '@' !in body {
      assert e == owner;
    } else if !(OwnerAutoIncluded(commenter, owner) && e == owner) {
      var ms := Extract(body).value;
      assert e in MergeMentions(commenter, owner, ms, table);
      MentionedFromTable(e, ms, table);
    }
  }

  /** The pieces `act_on_comment` computes on its way to a successful result. */
  lemma ActOnCommentSteps(comment: Comment, p: Payload, table: Table, commenterId: string)
    returns (commenter: Engineer, owner: Engineer, list: seq<Engineer>, c: CommentContext)
    requires ActOnComment(comment, p, table, commenterId).Success?
    ensures Context(p).Some?
    ensures ByGithubLogin(table, comment.userLogin) == Some(commenter)
    ensures ByGithubLogin(table, Context(p).value.userLogin) == Some(owner)
    ensures PingList(commenter, owner, comment.body, table) == Success(list)
    ensures c == CommentContext(commenterId, commenter.usernames.slack, comment.htmlUrl, comment.body)
    ensures ActOnComment(comment, p, table, commenterId).value == Notify(list, c)
  {
    commenter := ByGithubLogin(table, comment.userLogin).value;
    owner := ByGithubLogin(table, Context(p).value.userLogin).value;
    list := PingList(commenter, owner, comment.body, table).value;
    c := CommentContext(commenterId, commenter.usernames.slack, comment.htmlUrl, comment.body);
  }

  /** Once both lookups and the ping list succeed, the comment's messages are
      the ping list notified in order. */
  lemma ActOnCommentFromSteps(comment: Comment, p: Payload, table: Table, commenterId: string,
                              commenter: Engineer, owner: Engineer, list: seq<Engineer>)
    requires Context(p).Some?
    requires ByGithubLogin(table, comment.userLogin) == Some(commenter)
    requires ByGithubLogin(table, Context(p).value.userLogin) == Some(owner)
    requires PingList(commenter, owner, comment.body, table) == Success(list)
    ensures ActOnComment(comment, p, table, commenterId) ==
      Success(Notify(list, CommentContext(commenterId, commenter.usernames.slack, comment.htmlUrl, comment.body)))
  {
  }

  /** Message `k` of a ping list drawn from the table addresses a
      non-silenced engineer of the table. */
  lemma PingedEngineerInTable(commenter: Engineer, owner: Engineer, body: string, table: Table,
                              list: seq<Engineer>, c: CommentContext, k: nat) returns (i: nat)
    requires exists i :: 0 <= i < |table| && table[i].engineer == owner
    requires PingList(commenter, owner, body, table) == Success(list)
    requires k < |Notify(list, c)|
    ensures i < |table| && !Silenced(table[i].engineer)
    ensures Addresses(Notify(list, c)[k], table[i].engineer.usernames.slack)
  {
    var j := SenderOf(list, c, k);
    PingListFromTable(commenter, owner, body, table, j);
    i :| 0 <= i < |table| && table[i].engineer == list[j];
    assert Notify(list, c)[k] in PingFor(list[j], c);
  }

  /** A mentioned engineer who is not silenced and wants direct messages gets
      the comment's direct message whenever the comment is handled without
      raising. */
  lemma MentionedEngineerGetsDm(comment: Comment, p: Payload, table: Table, commenterId: string, e: Engineer)
    requires ActOnComment(comment, p, table, commenterId).Success?
    requires '@' in comment.body && Extract(comment.body).Success?
    requires Mentioned(e, Extract(comment.body).value, table)
    requires !Silenced(e) && WantsDm(e)
    ensures DirectMessage(e.usernames.slack,
                          DmText(CommentContext(commenterId, ByGithubLogin(table, comment.userLogin).value.usernames.slack,
                                                comment.htmlUrl, comment.body)))
            in ActOnComment(comment, p, table, commenterId).value
  {
    var commenter, owner, list, c := ActOnCommentSteps(comment, p, table, commenterId);
    assert e in list;
    var i :| 0 <= i < |list| && list[i] == e;
    ListedEngineerIsPinged(list, i, c);
  }

  /** No comment message ever reaches an engineer whose frequency is "off":
      message `k` addresses the configured, non-silenced engineer at
      position `i` of the table. */
  lemma CommentMessageReachesActiveEngineer(comment: Comment, p: Payload, table: Table, commenterId: string, k: nat)
    returns (i: nat)
    requires ActOnComment(comment, p, table, commenterId).Success?
    requires k < |ActOnComment(comment, p, table, commenterId).value|
    ensures i < |table| && !Silenced(table[i].engineer)
    ensures Addresses(ActOnComment(comment, p, table, commenterId).value[k], table[i].engineer.usernames.slack)
  {
    var commenter, owner, list, c := ActOnCommentSteps(comment, p, table, commenterId);
    i := PingedEngineerInTable(commenter, owner, comment.body, table, list, c, k);
  }
}

=== FILE: delivery.dfy ===
/** `send_dm` and `alert_eng_pr`: how intents become chat messages, given which
    chat handles the platform can resolve to a user. */
module Delivery {
  import opened Webhook

  datatype Message = ToUser(user: string, text: string) | ToRoom(room: string, text: string)

  const EngPrRoom := "eng-pr"

  /** The operator alert posted when a direct message has no recipient. */
  function UnknownUserText(username: string): string {
    "Could not find user with name " + username + ", please configure everbot."
  }

  /** One intent as a chat message; `users` are the handles the chat
      platform's user lookup resolves. */
  function Deliver(i: Intent, users: set<string>): (m: Message)
    ensures m.ToUser? <==> i.DirectMessage? && i.slack in users
    ensures m.ToUser? ==> m.user == i.slack && m.text == i.text
    ensures m.ToRoom? ==> m.room == EngPrRoom
    ensures i.EngPrAlert? ==> m.text == i.text
    ensures i.DirectMessage? && i.slack !in users ==> m.text == UnknownUserText(i.slack)
  {
    match i
    case DirectMessage(username, content) =>
      if username in users then ToUser(username, content) else ToRoom(EngPrRoom, UnknownUserText(username))
    case EngPrAlert(text) => ToRoom(EngPrRoom, text)
  }

  function DeliverAll(intents: seq<Intent>, users: set<string>): (ms: seq<Message>)
    ensures |ms| == |intents|
  {
    if |intents| == 0 then [] else [Deliver(intents[0], users)] + DeliverAll(intents[1..], users)
  }

  /** Nothing is dropped on the way out: each intent yields exactly one
      message, in order, and a direct message to an unresolvable handle turns
      into an operator alert naming that handle. */
  lemma {:induction false} DeliverAllPointwise(intents: seq<Intent>, users: set<string>)
    ensures forall k :: 0 <= k < |intents| ==> DeliverAll(intents, users)[k] == Deliver(intents[k], users)
  {
    if |intents| > 0 {
      DeliverAllPointwise(intents[1..], users);
      forall k | 1 <= k < |intents|
        ensures DeliverAll(intents, users)[k] == Deliver(intents[k], users)
      {
        assert DeliverAll(intents, users)[k] == DeliverAll(intents[1..], users)[k - 1];
      }
    }
  }
}

=== FILE: directory.dfy ===
/** The engineer table (`config.engineers`) and `find_engineer`. */
module Directory {
  import opened Options

  datatype Usernames = Usernames(slack: string, github: string)

  /** `:github_preferences`; `nil` entries are `None`, other values are kept
      as the raw strings the handler compares against. */
  datatype GithubPrefs = GithubPrefs(frequency: Option<string>, pingLocation: Option<string>)

  /** `:travis_preferences`. */
  datatype TravisPrefs = TravisPrefs(frequency: Option<string>)

  /** One engineer record. Two records are the same engineer exactly when all
      their fields agree, which is how Ruby compares the hashes in `!=` and
      `uniq`. */
  datatype Engineer = Engineer(usernames: Usernames, githubPrefs: GithubPrefs, travisPrefs: TravisPrefs)

  /** A key of the configuration hash with its value. */
  datatype Entry = Entry(name: string, engineer: Engineer)

  /** The configuration hash in insertion order. */
  type Table = seq<Entry>

  /** A Ruby hash never holds one key twice. */
  predicate UniqueNames(table: Table) {
    forall i, j :: 0 <= i < j < |table| ==> table[i].name != table[j].name
  }

  /** Which of the keyword arguments `find_engineer` acts on: `name` wins over
      `slack`, which wins over `github`. */
  datatype Key = ByName(name: string) | BySlack(slack: string) | ByGithub(github: string) | NoKey

  function KeyOf(slack: Option<string>, github: Option<string>, name: Option<string>): (k: Key)
    ensures name.Some? ==> k == ByName(name.value)
    ensures name.None? && slack.Some? ==> k == BySlack(slack.value)
    ensures name.None? && slack.None? && github.Some? ==> k == ByGithub(github.value)
    ensures k == NoKey <==> name.None? && slack.None? && github.None?
  {
    if name.Some? then ByName(name.value)
    else if slack.Some? then BySlack(slack.value)
    else if github.Some? then ByGithub(github.value)
    else NoKey
  }

  /** Whether an entry answers a key. */
  predicate Hit(e: Entry, k: Key) {
    match k
    case ByName(n) => e.name == n
    case BySlack(h) => e.engineer.usernames.slack == h
    case ByGithub(h) => e.engineer.usernames.github == h
    case NoKey => false
  }

  /** Position of the first entry, in table order, that answers `k`. */
  function FirstHit(table: Table, k: Key): (r: Option<nat>)
    ensures r.None? <==> forall i :: 0 <= i < |table| ==> !Hit(table[i], k)
    ensures r.Some? ==> r.value < |table| && Hit(table[r.value], k)
    ensures r.Some? ==> forall j :: 0 <= j < r.value ==> !Hit(table[j], k)
  {
    if |table| == 0 then None
    else if Hit(table[0], k) then Some(0)
    else
      match FirstHit(table[1..], k)
      case None => None
      case Some(i) => Some(i + 1)
  }

  /** `find_engineer(slack:, github:, name:)`. */
  function FindEngineer(table: Table, slack: Option<string>, github: Option<string>, name: Option<string>): (r: Option<Engineer>)
    ensures name.None? && slack.None? && github.None? ==> r.None?
    ensures r.None? <==> forall i :: 0 <= i < |table| ==> !Hit(table[i], KeyOf(slack, github, name))
    ensures r.Some? ==> exists i :: 0 <= i < |table| && table[i].engineer == r.value &&
                                   Hit(table[i], KeyOf(slack, github, name)) &&
                                   forall j :: 0 <= j < i ==> !Hit(table[j], KeyOf(slack, github, name))
  {
    match FirstHit(table, KeyOf(slack, github, name))
    case None => None
    case Some(i) => Some(table[i].engineer)
  }

  /** `find_engineer(github: login)`, the only form the handler calls; a `nil`
      login finds nobody. */
  function ByGithubLogin(table: Table, login: Option<string>): (r: Option<Engineer>)
    ensures login.None? ==> r.None?
    ensures r.Some? ==> r.value.usernames.github == login.value
    ensures r.Some? ==> exists i :: 0 <= i < |table| && table[i].engineer == r.value
    ensures login.Some? && r.None? ==> forall i :: 0 <= i < |table| ==> table[i].engineer.usernames.github != login.value
  {
    FindEngineer(table, None, login, None)
  }

  /** With unique keys, looking up by name is the hash lookup `engineers[name]`. */
  lemma FindByNameIsHashLookup(table: Table, i: nat)
    requires UniqueNames(table) && i < |table|
    ensures FindEngineer(table, None, None, Some(table[i].name)) == Some(table[i].engineer)
  {
    var r := FindEngineer(table, None, None, Some(table[i].name));
    var k :| 0 <= k < |table| && table[k].engineer == r.value && Hit(table[k], ByName(table[i].name)) &&
             forall j :: 0 <= j < k ==> !Hit(table[j], ByName(table[i].name));
    assert k == i;
  }

  /** Looking up a login finds the first engineer in table order with that
      GitHub handle. */
  lemma FindsFirstWithLogin(table: Table, i: nat, login: string)
    requires i < |table| && table[i].engineer.usernames.github == login
    requires forall j :: 0 <= j < i ==> table[j].engineer.usernames.github != login
    ensures ByGithubLogin(table, Some(login)) == Some(table[i].engineer)
  {
    var k := FirstHit(table, ByGithub(login));
    assert Hit(table[i], ByGithub(login));
    assert k.Some?;
    assert !(k.value < i);
    assert !(i < k.value);
  }
}

=== FILE: ghping.dfy ===
/** `ghping`: the four independent checks on a payload and their sequential
    execution. */
module Dispatch {
  import opened Options
  import opened Directory
  import opened Webhook
  import CommentRouting
  import AssignRouting
  import BuildRouting

  datatype Action = OnComment | OnAssign | OnSuccess | OnFailure

  /** Position of each check in `ghping`. */
  function Rank(a: Action): nat {
    match a
    case OnComment => 0
    case OnAssign => 1
    case OnSuccess => 2
    case OnFailure => 3
  }

  /** The checks a payload triggers, in the order `ghping` runs them. */
  function Triggered(p: Payload): (r: seq<Action>)
    ensures OnComment in r <==> p.comment.Some?
    ensures OnAssign in r <==> p.action == Some("assigned")
    ensures OnSuccess in r <==> p.state == Some("success")
    ensures OnFailure in r <==> p.state == Some("failure")
    ensures !(OnSuccess in r && OnFailure in r)
    ensures forall i, j :: 0 <= i < j < |r| ==> Rank(r[i]) < Rank(r[j])
  {
    (if p.comment.Some? then [OnComment] else [])
    + (if p.action == Some("assigned") then [OnAssign] else [])
    + (if p.state == Some("success") then [OnSuccess] else [])
    + (if p.state == Some("failure") then [OnFailure] else [])
  }

  /** One check's handler. */
  function Perform(a: Action, p: Payload, table: Table, commenterId: string): Result<seq<Intent>, Fault> {
    match a
    case OnComment => if p.comment.Some? then CommentRouting.ActOnComment(p.comment.value, p, table, commenterId) else Success([])
    case OnAssign => AssignRouting.ActOnAssign(p, table)
    case OnSuccess => BuildRouting.ActOnBuild(p, table, BuildRouting.Passed)
    case OnFailure => BuildRouting.ActOnBuild(p, table, BuildRouting.Failed)
  }

  /** The messages sent before the request ended, and what it raised, if
      anything. */
  datatype Run = Run(sent: seq<Intent>, raised: Option<Fault>)

  /** Position of the first handler that raised, `|outs|` when none did. */
  function FirstFault(outs: seq<Result<seq<Intent>, Fault>>): (k: nat)
    ensures k <= |outs|
    ensures forall i :: 0 <= i < k ==> outs[i].Success?
    ensures k < |outs| ==> outs[k].Failure?
  {
    if |outs| == 0 || outs[0].Failure? then 0 else 1 + FirstFault(outs[1..])
  }

  /** The messages of the first `n` handlers, all of which returned. */
  function SentBy(outs: seq<Result<seq<Intent>, Fault>>, n: nat): seq<Intent>
    requires n <= |outs|
    requires forall i :: 0 <= i < n ==> outs[i].Success?
  {
    if n == 0 then [] else SentBy(outs, n - 1) + outs[n - 1].value
  }

  lemma SentByCons(o: Result<seq<Intent>, Fault>, outs: seq<Result<seq<Intent>, Fault>>, n: nat)
    requires o.Success? && n <= |outs|
    requires forall i :: 0 <= i < n ==> outs[i].Success?
    ensures SentBy([o] + outs, n + 1) == o.value + SentBy(outs, n)
  {
    if n > 0 {
      SentByCons(o, outs, n - 1);
      assert ([o] + outs)[n] == outs[n - 1];
    }
  }

  /** Runs the handlers' outcomes in order: the first raise ends the request,
      and what the handlers before it sent stays sent. */
  function Sequence(outs: seq<Result<seq<Intent>, Fault>>): (r: Run)
    ensures r.raised.None? <==> forall i :: 0 <= i < |outs| ==> outs[i].Success?
    ensures r.raised.Some? ==> r.raised.value == outs[FirstFault(outs)].error
    ensures r.sent == SentBy(outs, FirstFault(outs))
  {
    if |outs| == 0 then Run([], None)
    else
      match outs[0]
      case Failure(f) => Run([], Some(f))
      case Success(xs) =>
        var r := Sequence(outs[1..]);
        SentByCons(outs[0], outs[1..], FirstFault(outs[1..]));
        assert [outs[0]] + outs[1..] == outs;
        assert forall i :: 1 <= i < |outs| ==> outs[i] == outs[1..][i - 1];
        Run(xs + r.sent, r.raised)
  }

  /** The outcome of each check, in order. */
  function Outcomes(acts: seq<Action>, p: Payload, table: Table, commenterId: string): (outs: seq<Result<seq<Intent>, Fault>>)
    ensures |outs| == |acts|
    ensures forall i :: 0 <= i < |acts| ==> outs[i] == Perform(acts[i], p, table, commenterId)
  {
    seq(|acts|, i requires 0 <= i < |acts| => Perform(acts[i], p, table, commenterId))
  }

  /** The messages of checks that all returned, concatenated in order. */
  function Messages(acts: seq<Action>, p: Payload, table: Table, commenterId: string): seq<Intent>
    requires forall i :: 0 <= i < |acts| ==> Perform(acts[i], p, table, commenterId).Success?
  {
    if |acts| == 0 then []
    else Messages(acts[..|acts| - 1], p, table, commenterId) + Perform(acts[|acts| - 1], p, table, commenterId).value
  }

  /** What the first `n` checks sent is the concatenation of their messages. */
  lemma {:induction false} MessagesAreSent(acts: seq<Action>, p: Payload, table: Table, commenterId: string, n: nat)
    requires n <= |acts|
    requires forall i :: 0 <= i < n ==> Perform(acts[i], p, table, commenterId).Success?
    ensures SentBy(Outcomes(acts, p, table, commenterId), n) == Messages(acts[..n], p, table, commenterId)
  {
    if n > 0 {
      MessagesAreSent(acts, p, table, commenterId, n - 1);
      assert acts[..n][..n - 1] == acts[..n - 1];
      assert acts[..n][n - 1] == acts[n - 1];
    }
  }

  /** `ghping` on a decoded payload: the triggered checks run in order and the
      request ends normally exactly when every one of them returns. */
  function Ghping(p: Payload, table: Table, commenterId: string): (r: Run)
    ensures r.raised.None? <==> forall a :: a in Triggered(p) ==> Perform(a, p, table, commenterId).Success?
  {
    var acts := Triggered(p);
    var outs := Outcomes(acts, p, table, commenterId);
    assert (forall a :: a in acts ==> Perform(a, p, table, commenterId).Success?) <==>
           (forall i :: 0 <= i < |outs| ==> outs[i].Success?);
    Sequence(outs)
  }

  /** When every triggered check returns, all of their messages are sent, in
      the order the checks run. */
  lemma GhpingSendsAll(p: Payload, table: Table, commenterId: string)
    requires forall i :: 0 <= i < |Triggered(p)| ==> Perform(Triggered(p)[i], p, table, commenterId).Success?
    ensures Ghping(p, table, commenterId).raised.None?
    ensures Ghping(p, table, commenterId).sent == Messages(Triggered(p), p, table, commenterId)
  {
    var acts := Triggered(p);
    var outs := Outcomes(acts, p, table, commenterId);
    assert FirstFault(outs) == |acts|;
    MessagesAreSent(acts, p, table, commenterId, |acts|);
    assert acts[..|acts|] == acts;
  }

  /** When a check raises, it is the first one that does: the checks before
      it all returned and exactly their messages were sent. */
  lemma GhpingStopsAtFirstFault(p: Payload, table: Table, commenterId: string)
    requires Ghping(p, table, commenterId).raised.Some?
    ensures exists k ::
              && 0 <= k < |Triggered(p)|
              && (forall j :: 0 <= j < k ==> Perform(Triggered(p)[j], p, table, commenterId).Success?)
              && Perform(Triggered(p)[k], p, table, commenterId) == Failure(Ghping(p, table, commenterId).raised.value)
              && Ghping(p, table, commenterId).sent == Messages(Triggered(p)[..k], p, table, commenterId)
  {
    var acts := Triggered(p);
    var outs := Outcomes(acts, p, table, commenterId);
    var k := FirstFault(outs);
    var r := Sequence(outs);
    assert r == Ghping(p, table, commenterId);
    assert k < |acts|;
    MessagesAreSent(acts, p, table, commenterId, k);
    assert outs[k] == Failure(r.raised.value);
  }

  /** A run of one handler sends that handler's messages, or nothing when it
      raises. */
  lemma SingleOutcome(o: Result<seq<Intent>, Fault>)
    ensures Sequence([o]).sent == (if o.Success? then o.value else [])
  {
    assert [o][1..] == [];
  }

  /** A build status is either a pass or a failure, so a payload with no
      comment and no assignment produces at most one message. */
  lemma AtMostOneBuildMessage(p: Payload, table: Table, commenterId: string)
    requires p.comment.None? && p.action != Some("assigned")
    ensures |Ghping(p, table, commenterId).sent| <= 1
  {
    var acts := Triggered(p);
    if p.state == Some("success") {
      assert acts == [OnSuccess];
      SingleOutcome(Perform(OnSuccess, p, table, commenterId));
      assert Outcomes(acts, p, table, commenterId) == [Perform(OnSuccess, p, table, commenterId)];
    } else if p.state == Some("failure") {
      assert acts == [OnFailure];
      SingleOutcome(Perform(OnFailure, p, table, commenterId));
      assert Outcomes(acts, p, table, commenterId) == [Perform(OnFailure, p, table, commenterId)];
    } else {
      assert acts == [];
    }
  }

  /** A comment that raises ends the request before anything is sent, so the
      assignment and build checks never run. */
  lemma CommentFaultSendsNothing(p: Payload, table: Table, commenterId: string)
    requires p.comment.Some?
    requires CommentRouting.ActOnComment(p.comment.value, p, table, commenterId).Failure?
    ensures Ghping(p, table, commenterId) == Run([], Some(CommentRouting.ActOnComment(p.comment.value, p, table, commenterId).error))
  {
    var acts := Triggered(p);
    assert acts[0] == OnComment;
  }
}

=== FILE: lists.dfy ===
/** Ruby's `Array#uniq` and `Array#compact`, characterised by what they keep
    and in which order. */
module Lists {
  import opened Options

  predicate NoDup<T(==)>(s: seq<T>) {
    forall i, j :: 0 <= i < j < |s| ==> s[i] != s[j]
  }

  /** Position of the first occurrence of `x`. */
  function IndexOf<T(==)>(s: seq<T>, x: T): (i: nat)
    requires x in s
    ensures i < |s| && s[i] == x
    ensures forall j :: 0 <= j < i ==> s[j] != x
  {
    if s[0] == x then 0 else 1 + IndexOf(s[1..], x)
  }

  /** The first occurrence inside a prefix is the first occurrence overall. */
  lemma IndexOfPrefix<T>(s: seq<T>, n: nat, x: T)
    requires n <= |s| && x in s[..n]
    ensures IndexOf(s, x) == IndexOf(s[..n], x)
  {
    var k := IndexOf(s[..n], x);
    var m := IndexOf(s, x);
    assert s[k] == s[..n][k] == x;
    assert m <= k;
    assert s[..n][m] == s[m];
  }

  /** `s.uniq`: one copy of each element, kept at its first occurrence. */
  function Uniq<T(==)>(s: seq<T>): (r: seq<T>)
    ensures NoDup(r)
    ensures forall i :: 0 <= i < |r| ==> r[i] in s
    ensures forall i :: 0 <= i < |s| ==> s[i] in r
    ensures forall i, j :: 0 <= i < j < |r| ==> IndexOf(s, r[i]) < IndexOf(s, r[j])
  {
    if |s| == 0 then []
    else
      var init := s[..|s| - 1];
      var x := s[|s| - 1];
      assert s == init + [x];
      var u := Uniq(init);
      forall y | y in u
        ensures IndexOf(s, y) == IndexOf(init, y) < |init|
      {
        IndexOfPrefix(s, |init|, y);
      }
      if x in u then u
      else
        assert IndexOf(s, x) == |init|;
        u + [x]
  }

  /** `s.compact`: the values of the non-`nil` entries, in order. */
  function Compact<T(==)>(s: seq<Option<T>>): (r: seq<T>)
    ensures forall i :: 0 <= i < |r| ==> Some(r[i]) in s
    ensures forall i :: 0 <= i < |s| ==> s[i].Some? ==> s[i].value in r
  {
    if |s| == 0 then []
    else
      var init := s[..|s| - 1];
      var x := s[|s| - 1];
      assert s == init + [x];
      var c := Compact(init);
      if x.None? then c else c + [x.value]
  }

  /** On a sequence without repeats, `compact` keeps the values distinct and
      in their original order. */
  lemma {:induction false} CompactDistinct<T>(s: seq<Option<T>>)
    requires NoDup(s)
    ensures NoDup(Compact(s))
    ensures forall i, j :: 0 <= i < j < |Compact(s)| ==> IndexOf(s, Some(Compact(s)[i])) < IndexOf(s, Some(Compact(s)[j]))
  {
    if |s| > 0 {
      var init := s[..|s| - 1];
      var x := s[|s| - 1];
      assert s == init + [x];
      assert NoDup(init) by {
        forall i, j | 0 <= i < j < |init| ensures init[i] != init[j] {
          assert init[i] == s[i] && init[j] == s[j];
        }
      }
      var c := Compact(init);
      CompactDistinct(init);
      forall y | y in c
        ensures IndexOf(s, Some(y)) == IndexOf(init, Some(y)) < |init|
        ensures Some(y) != x
      {
        IndexOfPrefix(s, |init|, Some(y));
        var t := IndexOf(init, Some(y));
        assert s[t] == Some(y);
      }
      if x.Some? {
        var r := c + [x.value];
        assert Compact(s) == r;
        assert IndexOf(s, x) == |init|;
        forall i, j | 0 <= i < j < |r|
          ensures r[i] != r[j] && IndexOf(s, Some(r[i])) < IndexOf(s, Some(r[j]))
        {
          assert r[i] == c[i] && r[i] in c;
          if j < |c| {
            assert r[j] == c[j] && r[j] in c;
          } else {
            assert Some(r[j]) == x;
          }
        }
      } else {
        assert Compact(s) == c;
      }
    }
  }

  /** `s.uniq.compact`: the distinct non-`nil` values, each once, in order of
      first occurrence. */
  lemma {:induction false} UniqCompact<T>(s: seq<Option<T>>)
    ensures NoDup(Compact(Uniq(s)))
    ensures forall i :: 0 <= i < |Compact(Uniq(s))| ==> Some(Compact(Uniq(s))[i]) in s
    ensures forall i :: 0 <= i < |s| ==> s[i].Some? ==> s[i].value in Compact(Uniq(s))
    ensures forall i, j :: 0 <= i < j < |Compact(Uniq(s))| ==>
      IndexOf(s, Some(Compact(Uniq(s))[i])) < IndexOf(s, Some(Compact(Uniq(s))[j]))
  {
    var u := Uniq(s);
    var l := Compact(u);
    CompactDistinct(u);
    forall i, j | 0 <= i < j < |l|
      ensures IndexOf(s, Some(l[i])) < IndexOf(s, Some(l[j]))
    {
      var a := IndexOf(u, Some(l[i]));
      var b := IndexOf(u, Some(l[j]));
      assert a < b;
      assert u[a] == Some(l[i]) && u[b] == Some(l[j]);
    }
  }

  /** The members of `s.uniq.compact` are exactly the values in `s`. */
  lemma UniqCompactMembers<T>(s: seq<Option<T>>)
    ensures forall k :: 0 <= k < |Compact(Uniq(s))| ==> Some(Compact(Uniq(s))[k]) in s
    ensures forall i :: 0 <= i < |s| && s[i].Some? ==> s[i].value in Compact(Uniq(s))
  {
    var u := Uniq(s);
    forall i | 0 <= i < |s| && s[i].Some? ensures s[i].value in Compact(u) {
      assert s[i] in u;
    }
  }

  /** `rs` with `h` in front when there is one. */
  function Prepend<T>(h: Option<T>, rs: seq<Option<T>>): (s: seq<Option<T>>)
    ensures h.None? ==> s == rs
    ensures h.Some? ==> |s| == |rs| + 1 && s[0] == h && s[1..] == rs
  {
    if h.Some? then [h] + rs else rs
  }

  /** `([h] + rs).uniq.compact` with an optional leading element `h`: `h`
      comes first, and the members are exactly `h` and the values of `rs`. */
  lemma UniqCompactWithHead<T>(h: Option<T>, rs: seq<Option<T>>)
    ensures h.Some? ==> |Compact(Uniq(Prepend(h, rs)))| > 0 && Compact(Uniq(Prepend(h, rs)))[0] == h.value
    ensures forall k :: 0 <= k < |Compact(Uniq(Prepend(h, rs)))| ==>
      Some(Compact(Uniq(Prepend(h, rs)))[k]) == h || Some(Compact(Uniq(Prepend(h, rs)))[k]) in rs
    ensures forall i :: 0 <= i < |rs| && rs[i].Some? ==> rs[i].value in Compact(Uniq(Prepend(h, rs)))
  {
    var s := Prepend(h, rs);
    UniqCompactMembers(s);
    if h.Some? {
      assert s == [h] + rs;
      HeadComesFirst(h, rs);
      assert forall i :: 0 <= i < |rs| ==> s[i + 1] == rs[i];
    }
  }

  lemma HeadComesFirst<T>(h: Option<T>, rs: seq<Option<T>>)
    requires h.Some?
    ensures var l := Compact(Uniq([h] + rs)); |l| > 0 && l[0] == h.value
  {
    var s := [h] + rs;
    var u := Uniq(s);
    assert s[0] == h;
    assert IndexOf(s, h) == 0;
    assert h in u;
    assert IndexOf(u, h) == 0;
    assert u[0] == h;
    assert u == [h] + u[1..];
    CompactCons(h, u[1..]);
  }

  /** `compact` on a sequence with a known first element. */
  lemma {:induction false} CompactCons<T>(x: Option<T>, s: seq<Option<T>>)
    ensures Compact([x] + s) == (if x.Some? then [x.value] else []) + Compact(s)
  {
    if |s| > 0 {
      var init := s[..|s| - 1];
      var last := s[|s| - 1];
      var xs := [x] + s;
      assert xs[..|xs| - 1] == [x] + init;
      assert xs[|xs| - 1] == last;
      var tail := if last.Some? then [last.value] else [];
      assert Compact(xs) == Compact([x] + init) + tail;
      assert Compact(s) == Compact(init) + tail;
      CompactCons(x, init);
    } else {
      assert [x] + s == [x];
      assert [x][..0] == [];
    }
  }

  /** `([h] + rs).uniq.compact` for an optional leading `h`: distinct, `h`
      first, exactly `h` and the values of `rs`, in order of first
      occurrence. */
  function Merge<T(==)>(h: Option<T>, rs: seq<Option<T>>): (l: seq<T>)
    ensures NoDup(l)
    ensures h.Some? ==> |l| > 0 && l[0] == h.value
    ensures forall k :: 0 <= k < |l| ==> Some(l[k]) == h || Some(l[k]) in rs
    ensures forall i :: 0 <= i < |rs| && rs[i].Some? ==> rs[i].value in l
    ensures forall k :: 0 <= k < |l| ==> Some(l[k]) in Prepend(h, rs)
    ensures forall i, j :: 0 <= i < j < |l| ==> IndexOf(Prepend(h, rs), Some(l[i])) < IndexOf(Prepend(h, rs), Some(l[j]))
  {
    UniqCompact(Prepend(h, rs));
    UniqCompactMembers(Prepend(h, rs));
    UniqCompactWithHead(h, rs);
    Compact(Uniq(Prepend(h, rs)))
  }
}

=== FILE: mentions.dfy ===
/** Extraction of `@`-mentioned GitHub logins from a comment body, as
    `act_on_comment` does it: the body is cut at every `@`, the text before
    the first `@` is dropped, and each remaining piece gives its first word
    with every non-handle character removed. */
module Mentions {
  import opened Options
  import opened RubyText
  import opened Webhook

  /** The handles of a run of fields, each field giving its first token with
      the non-handle characters removed; a field without a token raises. */
  function Handles(segs: seq<string>): (r: Result<seq<string>, Fault>)
    ensures r.Success? <==> forall i :: 0 <= i < |segs| ==> FirstToken(segs[i]).Some?
    ensures r.Failure? ==> r.error == MentionWithoutToken
    ensures r.Success? ==> |r.value| == |segs|
    ensures r.Success? ==> forall i :: 0 <= i < |segs| ==> r.value[i] == Clean(FirstToken(segs[i]).value)
  {
    if |segs| == 0 then Success([])
    else
      match FirstToken(segs[0])
      case None => Failure(MentionWithoutToken)
      case Some(t) =>
        var rest := Handles(segs[1..]);
        if rest.Failure? then rest else Success([Clean(t)] + rest.value)
  }

  /** The mentions of a comment body, in order of occurrence, duplicates kept. */
  function Extract(body: string): (r: Result<seq<string>, Fault>)
    ensures r.Success? ==> forall i :: 0 <= i < |r.value| ==> AllHandleChars(r.value[i])
    ensures r == Failure(OnlyAtSigns) <==> Split(body, '@') == []
    ensures r.Success? <==> |Split(body, '@')| > 0 &&
                            forall i :: 1 <= i < |Split(body, '@')| ==> FirstToken(Split(body, '@')[i]).Some?
    ensures r.Success? ==> |r.value| == |Split(body, '@')| - 1
  {
    var segs := Split(body, '@');
    if |segs| == 0 then Failure(OnlyAtSigns)
    else
      var r := Handles(segs[1..]);
      assert r.Success? <==> forall i :: 1 <= i < |segs| ==> FirstToken(segs[i]).Some? by {
        forall i | 1 <= i < |segs| ensures segs[i] == segs[1..][i - 1] { }
      }
      r
  }

  /** A comment written as `prefix @h1 @h2 ... @hn ` (each handle followed by a
      space). */
  function MentionText(prefix: string, hs: seq<string>): string {
    if |hs| == 0 then prefix
    else MentionText(prefix, hs[..|hs| - 1]) + "@" + hs[|hs| - 1] + " "
  }

  /** The `@`-separated fields of `MentionText`. */
  function MentionFields(prefix: string, hs: seq<string>): (fs: seq<string>)
    ensures |fs| == |hs| + 1 && fs[0] == prefix
    ensures forall i :: 0 <= i < |hs| ==> fs[i + 1] == hs[i] + " "
  {
    if |hs| == 0 then [prefix]
    else MentionFields(prefix, hs[..|hs| - 1]) + [hs[|hs| - 1] + " "]
  }

  lemma {:induction false} MentionTextIsJoin(prefix: string, hs: seq<string>)
    ensures MentionText(prefix, hs) == Join(MentionFields(prefix, hs), '@')
  {
    if |hs| > 0 {
      MentionTextIsJoin(prefix, hs[..|hs| - 1]);
      JoinSnoc(MentionFields(prefix, hs[..|hs| - 1]), hs[|hs| - 1] + " ", '@');
    }
  }

  /** A handle followed by a space is its own first token, and cleaning it
      changes nothing. */
  lemma HandleField(h: string)
    requires h != "" && AllHandleChars(h)
    ensures FirstToken(h + " ") == Some(h)
    ensures Clean(h) == h
  {
    var f := h + " ";
    assert !IsSpace(f[0]);
    assert LeadingSpaces(f) == 0;
    WordBeforeSpace(h);
    assert f[0..] == f;
  }

  lemma {:induction false} WordBeforeSpace(h: string)
    requires AllHandleChars(h)
    ensures Word(h + " ") == h
  {
    if |h| > 0 {
      assert (h + " ")[1..] == h[1..] + " ";
      WordBeforeSpace(h[1..]);
      assert [h[0]] + h[1..] == h;
    }
  }

  /** Writing handles into a comment and extracting them gives the same
      handles back, in the same order and with repetitions. */
  lemma MentionRoundTrip(prefix: string, hs: seq<string>)
    requires '@' !in prefix
    requires prefix != "" || |hs| > 0
    requires forall i :: 0 <= i < |hs| ==> hs[i] != "" && AllHandleChars(hs[i])
    ensures Extract(MentionText(prefix, hs)) == Success(hs)
  {
    MentionFieldsSplit(prefix, hs);
    HandlesOfMentionFields(prefix, hs);
  }

  /** `split('@')` of a mention text recovers its fields. */
  lemma MentionFieldsSplit(prefix: string, hs: seq<string>)
    requires '@' !in prefix
    requires prefix != "" || |hs| > 0
    requires forall i :: 0 <= i < |hs| ==> AllHandleChars(hs[i])
    ensures Split(MentionText(prefix, hs), '@') == MentionFields(prefix, hs)
  {
    var fs := MentionFields(prefix, hs);
    forall i | 1 <= i < |fs| ensures '@' !in fs[i] {
      assert fs[i] == hs[i - 1] + " ";
      assert !HandleChar('@');
    }
    MentionTextIsJoin(prefix, hs);
    SplitJoinRoundTrip(fs, '@');
  }

  /** Each field after an `@` yields the handle written there. */
  lemma HandlesOfMentionFields(prefix: string, hs: seq<string>)
    requires forall i :: 0 <= i < |hs| ==> hs[i] != "" && AllHandleChars(hs[i])
    ensures Handles(MentionFields(prefix, hs)[1..]) == Success(hs)
  {
    var segs := MentionFields(prefix, hs)[1..];
    forall i | 0 <= i < |segs| ensures FirstToken(segs[i]) == Some(hs[i]) && Clean(hs[i]) == hs[i] {
      HandleField(hs[i]);
    }
    var r := Handles(segs);
    assert r.Success?;
    assert r.value == hs;
  }

  /** Text before the first `@`, including none at all, never changes the
      handles, as long as something other than `@` characters follows the
      first `@`; `PrefixMattersOnlyWhenNothingFollows` covers the rest. */
  lemma TextBeforeFirstAtIgnored(p: string, q: string, rest: string)
    requires '@' !in p && '@' !in q
    requires (p != "" && q != "") || Split(rest, '@') != []
    ensures Extract(p + "@" + rest) == Extract(q + "@" + rest)
  {
    SplitAfterPrefix(p, '@', rest);
    SplitAfterPrefix(q, '@', rest);
    assert ([p] + Split(rest, '@'))[1..] == ([q] + Split(rest, '@'))[1..];
  }

  /** When only `@` characters follow the first `@`, the text before it is
      what decides: with none the body has no fields and raises, with some
      there are no mentions. */
  lemma PrefixMattersOnlyWhenNothingFollows(p: string, rest: string)
    requires '@' !in p && Split(rest, '@') == []
    ensures p == "" ==> Extract(p + "@" + rest) == Failure(OnlyAtSigns)
    ensures p != "" ==> Extract(p + "@" + rest) == Success([])
  {
    if p == "" {
      FieldsOfPrefix(p, '@', rest);
      var gs := [p] + Fields(rest, '@');
      assert forall i :: 0 <= i < |gs| ==> gs[i] == "";
      assert Split(p + "@" + rest, '@') == DropTrailingEmpty(gs);
    } else {
      SplitAfterPrefix(p, '@', rest);
    }
  }
}

=== FILE: options.dfy ===
/** Failure-compatible wrappers used throughout the model: `Option` stands for
    Ruby's `nil`-or-value, `Result` for "returned normally" versus "raised". */
module Options {

  datatype Option<+T> = None | Some(value: T)

  datatype Result<+R, +E> = Success(value: R) | Failure(error: E) {
    predicate IsFailure() {
      Failure?
    }

    function PropagateFailure<U>(): Result<U, E>
      requires Failure?
    {
      Failure(error)
    }

    function Extract(): R
      requires Success?
    {
      value
    }
  }
}

=== FILE: scenarios.dfy ===
/** Worked examples: mention extraction, including the example in the
    comment beside it in `act_on_comment`, build and assignment messages,
    and end-to-end runs on a three-engineer team. */
module Scenarios {
  import opened Options
  import opened RubyText
  import opened Directory
  import opened Webhook
  import opened Mentions
  import opened Lists
  import CommentRouting
  import AssignRouting
  import BuildRouting
  import Dispatch

  /** A token that starts the field and ends at a space or the field's end. */
  lemma TokenAtStart(f: string, n: nat)
    requires 0 < n <= |f| && NoSpace(f[..n]) && (n == |f| || IsSpace(f[n]))
    ensures FirstToken(f) == Some(f[..n])
  {
    assert !IsSpace(f[..n][0]);
    assert LeadingSpaces(f) == 0;
    WordUpTo(f, n);
    assert f[0..] == f;
  }

  lemma MentionsInOrder()
    ensures Extract("a @b @c d") == Success(["b", "c"])
  {
    var fs := ["a ", "b ", "c d"];
    JoinExample();
    SplitJoinRoundTrip(fs, '@');
    assert fs[1..] == ["b ", "c d"];
    HandlesExample();
  }

  lemma JoinExample()
    ensures Join(["a ", "b ", "c d"], '@') == "a @b @c d"
  {
    assert Join(["c d"], '@') == "c d";
    assert ["a ", "b ", "c d"][1..] == ["b ", "c d"];
    assert ["b ", "c d"][1..] == ["c d"];
  }

  lemma HandlesExample()
    ensures Handles(["b ", "c d"]) == Success(["b", "c"])
  {
    TokenAtStart("b ", 1);
    TokenAtStart("c d", 1);
    assert "b "[..1] == "b" && "c d"[..1] == "c";
    assert AllHandleChars("b") && AllHandleChars("c");
    var r := Handles(["b ", "c d"]);
    assert r.Success? && |r.value| == 2;
    assert r.value[0] == "b" && r.value[1] == "c";
    assert r.value == ["b", "c"];
  }

  /** Punctuation after a handle is stripped. */
  lemma PunctuationStripped()
    ensures Extract("@x!!, @y") == Success(["x", "y"])
  {
    var fs := ["", "x!!, ", "y"];
    assert Join(fs, '@') == "@x!!, @y" by {
      assert Join(["y"], '@') == "y";
      assert fs[1..] == ["x!!, ", "y"];
      assert fs[1..][1..] == ["y"];
    }
    SplitJoinRoundTrip(fs, '@');
    assert fs[1..] == ["x!!, ", "y"];
    PunctuatedHandles();
  }

  lemma PunctuatedHandles()
    ensures Handles(["x!!, ", "y"]) == Success(["x", "y"])
  {
    PunctuatedToken();
    TokenAtStart("y", 1);
    assert "y"[..1] == "y";
    CleanPunctuation();
    assert AllHandleChars("y");
    var r := Handles(["x!!, ", "y"]);
    assert r.Success? && |r.value| == 2;
    assert r.value == ["x", "y"];
  }

  lemma PunctuatedToken()
    ensures FirstToken("x!!, ") == Some("x!!,")
  {
    var f := "x!!, ";
    assert f[..4] == "x!!,";
    assert NoSpace(f[..4]);
    assert IsSpace(f[4]);
    TokenAtStart(f, 4);
  }

  lemma CleanPunctuation()
    ensures Clean("x!!,") == "x"
  {
    assert "x!!,"[1..] == "!!," && "!!,"[1..] == "!," && "!,"[1..] == "," && ","[1..] == "";
    assert Clean(",") == "";
    assert Clean("!,") == "";
    assert Clean("!!,") == "";
  }

  /** An `@` followed only by whitespace raises. */
  lemma TrailingAtRaises()
    ensures Extract("a @ ") == Failure(MentionWithoutToken)
  {
    var fs := ["a ", " "];
    assert Join(fs, '@') == "a @ " by {
      assert fs[1..] == [" "];
    }
    SplitJoinRoundTrip(fs, '@');
    assert fs[1..] == [" "];
    assert FirstToken(" ").None?;
  }

  /** Two `@` in a row leave an empty field, which raises. */
  lemma DoubleAtRaises()
    ensures Extract("@@b") == Failure(MentionWithoutToken)
  {
    var fs := ["", "", "b"];
    assert Join(fs, '@') == "@@b" by {
      assert fs[1..] == ["", "b"];
      assert fs[1..][1..] == ["b"];
    }
    SplitJoinRoundTrip(fs, '@');
    assert fs[1..] == ["", "b"];
    assert FirstToken("").None?;
  }

  /** A body of nothing but `@` splits into no fields at all, so the slice
      `[1..-1]` is `nil` and the handler raises. */
  lemma OnlyAtSignsRaise()
    ensures Extract("@@") == Failure(OnlyAtSigns)
  {
    assert "@@"[1..] == "@" && "@"[1..] == "";
    assert Fields("@", '@') == ["", ""];
    assert Fields("@@", '@') == ["", "", ""];
    assert Split("@@", '@') == [];
  }

  // ---------------------------------------------------------------------------
  // A three-engineer team
  // ---------------------------------------------------------------------------

  const Dave := Engineer(Usernames("dave", "dave"), GithubPrefs(Some("all_discussion"), Some("dm")), TravisPrefs(None))
  const Carol := Engineer(Usernames("carol", "carol"), GithubPrefs(Some("only_mentions"), Some("eng-pr")), TravisPrefs(Some("only_failures")))
  const Bob := Engineer(Usernames("bob", "bob"), GithubPrefs(None, None), TravisPrefs(None))
  const Team: Table := [Entry("Dave", Dave), Entry("Carol", Carol), Entry("Bob", Bob)]

  lemma TeamLookups()
    ensures ByGithubLogin(Team, Some("dave")) == Some(Dave)
    ensures ByGithubLogin(Team, Some("carol")) == Some(Carol)
    ensures ByGithubLogin(Team, Some("bob")) == Some(Bob)
  {
    FindsFirstWithLogin(Team, 0, "dave");
    FindsFirstWithLogin(Team, 1, "carol");
    FindsFirstWithLogin(Team, 2, "bob");
  }

  lemma CarolMentioned()
    ensures Extract("@carol thanks!") == Success(["carol"])
  {
    var fs := ["", "carol thanks!"];
    assert Join(fs, '@') == "@carol thanks!" by {
      assert fs[1..] == ["carol thanks!"];
    }
    SplitJoinRoundTrip(fs, '@');
    assert fs[1..] == ["carol thanks!"];
    CarolHandle();
  }

  lemma CarolHandle()
    ensures Handles(["carol thanks!"]) == Success(["carol"])
  {
    CarolToken();
    assert AllHandleChars("carol");
    var r := Handles(["carol thanks!"]);
    assert r.Success? && |r.value| == 1;
    assert r.value == ["carol"];
  }

  lemma CarolToken()
    ensures FirstToken("carol thanks!") == Some("carol")
  {
    var f := "carol thanks!";
    assert f[..5] == "carol";
    assert NoSpace(f[..5]);
    assert IsSpace(f[5]);
    TokenAtStart(f, 5);
  }

  lemma UniqOfTwo<T>(x: T, y: T)
    requires x != y
    ensures Uniq([x, y]) == [x, y]
  {
    assert [x, y][..1] == [x];
    assert [x][..0] == [];
    assert Uniq([x]) == [x];
  }

  lemma CompactOfTwo<T>(x: T, y: T)
    ensures Compact([Some(x), Some(y)]) == [x, y]
  {
    assert [Some(x), Some(y)][..1] == [Some(x)];
    assert [Some(x)][..0] == [];
    assert Compact([Some(x)]) == [x];
  }

  lemma OwnerThenCarol()
    ensures CommentRouting.MergeMentions(Bob, Dave, ["carol"], Team) == [Dave, Carol]
  {
    TeamLookups();
    assert CommentRouting.Resolved(Team, ["carol"]) == [Some(Carol)];
    assert CommentRouting.AutoOwner(Bob, Dave) == Some(Dave);
    assert Prepend(Some(Dave), [Some(Carol)]) == [Some(Dave), Some(Carol)];
    UniqOfTwo(Some(Dave), Some(Carol));
    CompactOfTwo(Dave, Carol);
  }

  lemma BobDaveCarolPingList()
    ensures CommentRouting.PingList(Bob, Dave, "@carol thanks!", Team) == Success([Dave, Carol])
  {
    CarolMentioned();
    OwnerThenCarol();
    assert '@' in "@carol thanks!" by {
      assert "@carol thanks!"[0] == '@';
    }
  }

  /** The message context of Bob's comment "@carol thanks!" at URL "U". */
  const BobsComment := CommentRouting.CommentContext("UBOB", "bob", "U", "@carol thanks!")

  lemma DaveAndCarolPings(c: CommentRouting.CommentContext)
    ensures CommentRouting.PingFor(Dave, c) == [DirectMessage("dave", CommentRouting.DmText(c))]
    ensures CommentRouting.PingFor(Carol, c) == [EngPrAlert(CommentRouting.EngPrText("carol", c))]
  {
    assert !CommentRouting.Silenced(Dave) && CommentRouting.WantsDm(Dave);
    assert !CommentRouting.Silenced(Carol) && CommentRouting.WantsEngPr(Carol);
  }

  lemma DaveCarolNotified()
    ensures CommentRouting.Notify([Dave, Carol], BobsComment) ==
      [DirectMessage("dave", CommentRouting.DmText(BobsComment)),
       EngPrAlert(CommentRouting.EngPrText("carol", BobsComment))]
  {
    var c := BobsComment;
    DaveAndCarolPings(c);
    assert [Dave, Carol][1..] == [Carol];
    assert [Carol][1..] == [];
    assert CommentRouting.Notify([Carol], c) == CommentRouting.PingFor(Carol, c);
  }

  /** Bob comments "@carol thanks!" on Dave's issue: Dave (all discussion, by
      direct message) hears about it first, then Carol (only mentions, in
      #eng-pr) is named in the shared channel. */
  lemma MentionOnSomeoneElsesIssue()
    ensures CommentRouting.ActOnComment(
              Comment("U", "@carol thanks!", Some("bob")),
              Payload(Some(Comment("U", "@carol thanks!", Some("bob"))), None, None, None, Some(Resource("U2", Some("dave"), None)), None),
              Team, "UBOB")
            == Success([DirectMessage("dave", CommentRouting.DmText(BobsComment)),
                        EngPrAlert(CommentRouting.EngPrText("carol", BobsComment))])
  {
    var comment := Comment("U", "@carol thanks!", Some("bob"));
    var p := Payload(Some(comment), None, None, None, Some(Resource("U2", Some("dave"), None)), None);
    TeamLookups();
    BobDaveCarolPingList();
    CommentRouting.ActOnCommentFromSteps(comment, p, Team, "UBOB", Bob, Dave, [Dave, Carol]);
    DaveCarolNotified();
  }

  /** Nobody on the team has the GitHub handle "zoe". */
  lemma ZoeUnknown()
    ensures ByGithubLogin(Team, Some("zoe")) == None
  {
    assert forall i :: 0 <= i < |Team| ==> Team[i].engineer.usernames.github != "zoe";
  }

  /** Carol's travis frequency is "only_failures": a passing build of her
      commit is not reported to her, a failing one is, by direct message. */
  lemma CarolBuilds(assignee: Option<string>)
    ensures BuildRouting.ActOnBuild(CarolsCommit(assignee, "success"), Team, BuildRouting.Passed) == Success([])
    ensures BuildRouting.ActOnBuild(CarolsCommit(assignee, "failure"), Team, BuildRouting.Failed)
            == Success([DirectMessage("carol", BuildRouting.StatusLine(BuildRouting.Failed) + "\n" + "C")])
  {
    assert CarolsCommit(assignee, "success").commit == Some(Commit("C", Some("carol")));
    assert CarolsCommit(assignee, "failure").commit == Some(Commit("C", Some("carol")));
    FindsFirstWithLogin(Team, 1, "carol");
    assert !BuildRouting.Sends(Some("only_failures"), BuildRouting.Passed);
    assert BuildRouting.Sends(Some("only_failures"), BuildRouting.Failed);
  }

  /** A build status with the given state for Carol's commit "C", with the
      given assignment. */
  function CarolsCommit(assignee: Option<string>, state: string): Payload {
    Payload(None, if assignee.Some? then Some("assigned") else None, Some(state), None,
            if assignee.Some? then Some(Resource("I", Some("dave"), assignee)) else None,
            Some(Commit("C", Some("carol"))))
  }

  /** The whole webhook for a passing build of Carol's commit runs only the
      success check, which stays silent. */
  lemma CarolsPassIsSilent()
    ensures Dispatch.Ghping(CarolsCommit(None, "success"), Team, "X") == Dispatch.Run([], None)
  {
    var p := CarolsCommit(None, "success");
    assert Dispatch.Triggered(p) == [Dispatch.OnSuccess];
    CarolBuilds(None);
    var pass := Dispatch.Perform(Dispatch.OnSuccess, p, Team, "X");
    assert pass == Success([]);
    Dispatch.GhpingSendsAll(p, Team, "X");
    assert Dispatch.Messages([Dispatch.OnSuccess], p, Team, "X") == [] + pass.value;
  }

  lemma AssignAndFailureChecks(assignee: string)
    ensures Dispatch.Triggered(CarolsCommit(Some(assignee), "failure")) == [Dispatch.OnAssign, Dispatch.OnFailure]
  {
  }

  lemma CarolAssigned()
    ensures AssignRouting.ActOnAssign(CarolsCommit(Some("carol"), "failure"), Team)
            == Success([DirectMessage("carol", AssignRouting.AssignText(AssignRouting.Issue, "I"))])
  {
    var p := CarolsCommit(Some("carol"), "failure");
    assert AssignRouting.DetectType(p) == Some(AssignRouting.Issue);
    assert AssignRouting.ResourceOf(p, AssignRouting.Issue).value.assigneeLogin == Some("carol");
    FindsFirstWithLogin(Team, 1, "carol");
  }

  /** An issue assigned to someone not on the team while Carol's commit fails:
      the assignment check raises first, so Carol never hears of the failure. */
  lemma UnknownAssigneeSwallowsFailure()
    ensures Dispatch.Ghping(CarolsCommit(Some("zoe"), "failure"), Team, "X") == Dispatch.Run([], Some(UnknownAssignee))
  {
    var p := CarolsCommit(Some("zoe"), "failure");
    ZoeUnknown();
    AssignAndFailureChecks("zoe");
    assert AssignRouting.ActOnAssign(p, Team) == Failure(UnknownAssignee);
  }
}

=== FILE: text.dfy ===
/** The handful of Ruby `String` operations the pinger relies on, with Ruby's
    edge cases written out: `split('@')` (trailing empty fields dropped),
    `split(' ')` (awk-style whitespace splitting), `gsub` with a negated
    character class, and `tr`. */
module RubyText {
  import opened Options

  /** The ASCII whitespace that awk-style `split(' ')` separates on. */
  predicate IsSpace(c: char) {
    c == ' ' || c == '\t' || c == '\n' || c == '\U{B}' || c == '\U{C}' || c == '\r'
  }

  /** Characters a GitHub handle may contain: ASCII letters of either case,
      digits, `-` and `_`. */
  predicate HandleChar(c: char) {
    ('0' <= c <= '9') || ('a' <= c <= 'z') || ('A' <= c <= 'Z') || c == '-' || c == '_'
  }

  predicate AllSpace(s: string) {
    forall i :: 0 <= i < |s| ==> IsSpace(s[i])
  }

  predicate NoSpace(s: string) {
    forall i :: 0 <= i < |s| ==> !IsSpace(s[i])
  }

  predicate AllHandleChars(s: string) {
    forall i :: 0 <= i < |s| ==> HandleChar(s[i])
  }

  // ---------------------------------------------------------------------------
  // split on a single character
  // ---------------------------------------------------------------------------

  /** Fields joined back together with `sep` between consecutive ones. */
  function Join(fs: seq<string>, sep: char): string {
    if |fs| == 0 then ""
    else if |fs| == 1 then fs[0]
    else fs[0] + [sep] + Join(fs[1..], sep)
  }

  /** Every field between separators, empty ones included: the split before
      Ruby discards anything. */
  function Fields(s: string, sep: char): (fs: seq<string>)
    ensures |fs| >= 1
    ensures forall i :: 0 <= i < |fs| ==> sep !in fs[i]
    ensures Join(fs, sep) == s
  {
    if |s| == 0 then [""]
    else
      var rest := Fields(s[1..], sep);
      if s[0] == sep then
        assert ([""] + rest)[1..] == rest;
        [""] + rest
      else
        var fs := [[s[0]] + rest[0]] + rest[1..];
        assert fs[1..] == rest[1..];
        if |rest| == 1 then fs
        else
          assert Join(rest, sep) == rest[0] + [sep] + Join(rest[1..], sep);
          assert s == [s[0]] + s[1..];
          fs
  }

  /** Removes every trailing empty field, as `String#split` does when no limit
      is given. */
  function DropTrailingEmpty(fs: seq<string>): (r: seq<string>)
    ensures |r| <= |fs| && r == fs[..|r|]
    ensures |r| == 0 || r[|r| - 1] != ""
    ensures forall i :: |r| <= i < |fs| ==> fs[i] == ""
  {
    if |fs| > 0 && fs[|fs| - 1] == "" then DropTrailingEmpty(fs[..|fs| - 1]) else fs
  }

  /** Ruby's `s.split(sep)` for a one-character, non-space separator. */
  function Split(s: string, sep: char): (r: seq<string>)
    ensures forall i :: 0 <= i < |r| ==> sep !in r[i]
    ensures |r| == 0 || r[|r| - 1] != ""
    ensures sep !in s ==> r == (if s == "" then [] else [s])
  {
    var fs := Fields(s, sep);
    if sep !in s then
      FieldsWithoutSep(s, sep);
      DropTrailingEmpty(fs)
    else
      DropTrailingEmpty(fs)
  }

  lemma {:induction false} FieldsWithoutSep(s: string, sep: char)
    requires sep !in s
    ensures Fields(s, sep) == [s]
  {
    if |s| > 0 {
      assert sep !in s[1..];
      FieldsWithoutSep(s[1..], sep);
      assert [s[0]] + s[1..] == s;
    }
  }

  /** A leading separator-free field is split off as the first field. */
  lemma {:induction false} FieldsOfPrefix(p: string, sep: char, t: string)
    requires sep !in p
    ensures Fields(p + [sep] + t, sep) == [p] + Fields(t, sep)
  {
    if |p| == 0 {
      assert p + [sep] + t == [sep] + t;
      assert ([sep] + t)[1..] == t;
    } else {
      assert (p + [sep] + t)[1..] == p[1..] + [sep] + t;
      assert sep !in p[1..];
      FieldsOfPrefix(p[1..], sep, t);
      assert [p[0]] + p[1..] == p;
    }
  }

  lemma JoinSnoc(fs: seq<string>, f: string, sep: char)
    requires |fs| >= 1
    ensures Join(fs + [f], sep) == Join(fs, sep) + [sep] + f
  {
    if |fs| == 1 {
      assert fs + [f] == [fs[0], f];
    } else {
      assert (fs + [f])[1..] == fs[1..] + [f];
      JoinSnoc(fs[1..], f, sep);
    }
  }

  lemma {:induction false} FieldsOfJoin(fs: seq<string>, sep: char)
    requires |fs| >= 1
    requires forall i :: 0 <= i < |fs| ==> sep !in fs[i]
    ensures Fields(Join(fs, sep), sep) == fs
  {
    if |fs| == 1 {
      FieldsWithoutSep(fs[0], sep);
    } else {
      FieldsOfJoin(fs[1..], sep);
      FieldsOfPrefix(fs[0], sep, Join(fs[1..], sep));
      assert [fs[0]] + fs[1..] == fs;
    }
  }

  lemma DropTrailingKeepsNonEmptyLast(fs: seq<string>)
    requires |fs| >= 1 && fs[|fs| - 1] != ""
    ensures DropTrailingEmpty(fs) == fs
  {
  }

  /** Splitting the join of separator-free fields whose last field is
      non-empty gives the fields back. */
  lemma SplitJoinRoundTrip(fs: seq<string>, sep: char)
    requires |fs| >= 1 && fs[|fs| - 1] != ""
    requires forall i :: 0 <= i < |fs| ==> sep !in fs[i]
    ensures Split(Join(fs, sep), sep) == fs
  {
    FieldsOfJoin(fs, sep);
    DropTrailingKeepsNonEmptyLast(fs);
  }

  /** Dropping trailing empties is unaffected by a field in front, unless
      that field is empty and everything after it is dropped too. */
  lemma {:induction false} DropTrailingCons(f: string, fs: seq<string>)
    requires f != "" || DropTrailingEmpty(fs) != []
    ensures DropTrailingEmpty([f] + fs) == [f] + DropTrailingEmpty(fs)
    decreases |fs|
  {
    if |fs| > 0 && fs[|fs| - 1] == "" {
      assert ([f] + fs)[..|fs|] == [f] + fs[..|fs| - 1];
      DropTrailingCons(f, fs[..|fs| - 1]);
    } else if |fs| == 0 {
      assert [f] + fs == [f];
    }
  }

  /** Text before the first separator never influences the later fields;
      an empty prefix survives as the first field as long as a non-empty
      field follows. */
  lemma {:induction false} SplitAfterPrefix(p: string, sep: char, t: string)
    requires sep !in p && (p != "" || Split(t, sep) != [])
    ensures Split(p + [sep] + t, sep) == [p] + Split(t, sep)
  {
    FieldsOfPrefix(p, sep, t);
    DropTrailingCons(p, Fields(t, sep));
    if sep !in t {
      FieldsWithoutSep(t, sep);
    }
  }

  // ---------------------------------------------------------------------------
  // awk-style split(' ').first
  // ---------------------------------------------------------------------------

  /** Number of leading whitespace characters. */
  function LeadingSpaces(s: string): (k: nat)
    ensures k <= |s| && AllSpace(s[..k])
    ensures k == |s| || !IsSpace(s[k])
  {
    if |s| == 0 || !IsSpace(s[0]) then 0
    else
      var k := LeadingSpaces(s[1..]);
      assert s[..k + 1] == [s[0]] + s[1..][..k];
      k + 1
  }

  /** The longest whitespace-free prefix. */
  function Word(s: string): (w: string)
    ensures |w| <= |s| && w == s[..|w|]
    ensures NoSpace(w)
    ensures |w| == |s| || IsSpace(s[|w|])
  {
    if |s| == 0 || IsSpace(s[0]) then ""
    else
      var w := Word(s[1..]);
      assert s[..|w| + 1] == [s[0]] + s[1..][..|w|];
      [s[0]] + w
  }

  /** `Word` stops exactly at the first whitespace character. */
  lemma {:induction false} WordUpTo(s: string, n: nat)
    requires n <= |s| && NoSpace(s[..n]) && (n == |s| || IsSpace(s[n]))
    ensures Word(s) == s[..n]
  {
    if n > 0 {
      var t := s[1..][..n - 1];
      assert NoSpace(t) by {
        forall i | 0 <= i < |t| ensures !IsSpace(t[i]) {
          assert t[i] == s[..n][i + 1];
        }
      }
      assert !IsSpace(s[..n][0]);
      WordUpTo(s[1..], n - 1);
      assert s[..n] == [s[0]] + s[1..n];
    }
  }

  /** `s.split(' ').first`: the first whitespace-delimited token, or `nil`
      when the string holds nothing but whitespace. */
  function FirstToken(s: string): (r: Option<string>)
    ensures r.None? <==> AllSpace(s)
    ensures r.Some? ==>
      var k := LeadingSpaces(s);
      && r.value != ""
      && NoSpace(r.value)
      && k + |r.value| <= |s|
      && s[k..k + |r.value|] == r.value
      && (k + |r.value| == |s| || IsSpace(s[k + |r.value|]))
  {
    var k := LeadingSpaces(s);
    if k == |s| then
      assert s[..k] == s;
      None
    else
      var w := Word(s[k..]);
      assert s[k..][..|w|] == s[k..k + |w|];
      Some(w)
  }

  // ---------------------------------------------------------------------------
  // gsub(/[^0-9a-z\-_]/i, '') and tr
  // ---------------------------------------------------------------------------

  /** Deletes every character outside `[0-9A-Za-z_-]`. */
  function Clean(s: string): (r: string)
    ensures AllHandleChars(r)
    ensures forall c :: c in r <==> c in s && HandleChar(c)
    ensures AllHandleChars(s) ==> r == s
  {
    if |s| == 0 then ""
    else
      var rest := Clean(s[1..]);
      assert s == [s[0]] + s[1..];
      if HandleChar(s[0]) then [s[0]] + rest else rest
  }

  /** A single character is kept exactly when it is a handle character. */
  lemma CleanChar(c: char)
    ensures Clean([c]) == (if HandleChar(c) then [c] else [])
  {
    assert [c][1..] == [];
  }

  /** Cleaning works character by character: the kept characters stay in
      their order, each as often as it occurs. */
  lemma {:induction false} CleanAppend(a: string, b: string)
    ensures Clean(a + b) == Clean(a) + Clean(b)
  {
    if |a| == 0 {
      assert a + b == b;
    } else {
      assert (a + b)[0] == a[0];
      assert (a + b)[1..] == a[1..] + b;
      CleanAppend(a[1..], b);
    }
  }

  /** `s.tr(from, to)` for single characters. */
  function Tr(s: string, from: char, to: char): (r: string)
    ensures |r| == |s|
    ensures forall i :: 0 <= i < |s| ==> r[i] == (if s[i] == from then to else s[i])
  {
    if |s| == 0 then ""
    else [if s[0] == from then to else s[0]] + Tr(s[1..], from, to)
  }
}

=== FILE: webhook.dfy ===
/** The decoded webhook body as far as the handler reads it, the notification
    intents it emits, and the points where the Ruby code raises. */
module Webhook {
  import opened Options

  /** `body["comment"]`: its `html_url`, `body` and `user.login`; a missing
      `user` or `login` is `None`. */
  datatype Comment = Comment(htmlUrl: string, body: string, userLogin: Option<string>)

  /** `body["pull_request"]` or `body["issue"]`: `html_url`, `user.login` (the
      owner) and `assignee.login`. */
  datatype Resource = Resource(htmlUrl: string, userLogin: Option<string>, assigneeLogin: Option<string>)

  /** `body["commit"]`: `html_url` and `committer.login`. */
  datatype Commit = Commit(htmlUrl: string, committerLogin: Option<string>)

  /** The top-level keys the handler consults; an absent or `null` key is
      `None`. */
  datatype Payload = Payload(
    comment: Option<Comment>,
    action: Option<string>,
    state: Option<string>,
    pullRequest: Option<Resource>,
    issue: Option<Resource>,
    commit: Option<Commit>)

  /** What `send_dm(slack, text)` and `alert_eng_pr(text)` are asked to do. */
  datatype Intent = DirectMessage(slack: string, text: string) | EngPrAlert(text: string)

  /** Where the handler would raise `NoMethodError` on `nil`. */
  datatype Fault =
    | NoContext            // comment on neither a pull request nor an issue
    | UnknownCommenter     // commenter not in the table
    | UnknownOwner         // pull request / issue owner not in the table
    | OnlyAtSigns          // `split('@')` gave no fields, so `[1..-1]` is nil
    | MentionWithoutToken  // a field after an `@` holds no token
    | UnknownAssignee      // assignee not in the table
    | NoCommit             // build status without a `commit`
    | UnknownCommitter     // committer not in the table
}
